=== FILE: README.md ===
# Latin American development dashboard: data pipeline and KPI model

This project is a Dafny model of the logic inside `app.py`, a Dash dashboard for Latin American development indicators. The model covers:

- **Loading** (`obtener_datos_bm`). For each of the eight indicators, the loader asks the World Bank Indicators API (v2) for every country's observations between 2000 and 2024. It skips the indicator when page 1 is unusable. Otherwise it appends pages 2..`pages` in order. It then normalises every row:
  - the ISO3 code is mapped back to the Spanish country name, falling back to the API's country name;
  - year and value are coerced to numbers;
  - rows without a year or value are dropped.

  Finally it concatenates the surviving indicator tables and sorts them by (Indicador, Pais, Anio).
- **Selection filter** (`_filtra_transforma`). Keeps the rows of one indicator, of a set of countries, inside an inclusive year range.
- **KPI panel** (`actualizar_kpis`). For one indicator and one country it derives:
  - the last value and its year;
  - the change against the previous row in year order (absolute and percent, with the zero guard); a year whose value was dropped is skipped;
  - the CAGR exponent and its guard;
  - the country's regional rank in its last year.

  It then renders the eight panel texts.
- **Value formatting** (`formato_valor`). Chooses among 'N/A', a `%` suffix and a `US$ ` prefix, then swaps the ',' and '.' separators through an 'X' placeholder.
- **Download and bar chart.** The export file name rule and export rows (`descargar`), and the bar chart's pick of one row per country, the one with the largest value (`fig_barras`).

Modules:

| file | module | contents |
|---|---|---|
| `wrappers.dfy` | `Wrappers` | `Option` |
| `text.dfy` | `Text` | one-character `replace`, the separator swap, substring test, decimal rendering of integers and its parser |
| `table.dfy` | `Table` | the `Row` record (CodigoISO3, Pais, Anio, Valor, Indicador), the three sort orders, a stable sort proved sorted and a permutation, boolean-mask selection, counting |
| `worldbank.dfy` | `WorldBank` | the registries, the API response shapes, page accumulation (`FetchIndicator`, a method with a page loop), normalisation, the indicator loop (`BuildCombinedTable`, a method) |
| `kpis.dfy` | `Kpis` | filter, KPI derivation, rank, formatting, the eight panel texts |
| `charts.dfy` | `Charts` | export file name and rows, bar-chart row pick |

Some parts are passed in as parameters rather than modelled:

- The HTTP page request is a function `fetch: (Query, int) -> Fetched`. A function fits because one load (`obtener_datos_bm`) requests each (query, page) pair at most once (app.py:58, 64): page 1 once, then each later page once, with a different query per indicator.
- `pd.to_numeric(..., errors='coerce')` is a pair of partial functions, `Coercion`.
- The float rendering `f"{v:,.2f}"` is `render: real -> string`.
- The fractional power `x ** (1 / n)` is `nthRoot`.

The combined table itself is a parameter of every dashboard operation, in place of the module-level `DF_ALL`.

The rank year is the selected country's last year inside the chosen range (app.py:265, 279), not the last year in the whole dataset. So whenever the panel has data, the country is ranked (`Kpis.KpisRankDefined`).

## Model

| member | source | states |
|---|---|---|
| Text.ReplaceAt | app.py:94 | `Replace` (Python's `str.replace` of one character): each character equal to the searched one becomes the replacement, every other character is kept |
| Text.SwapSeparatorsExchanges | app.py:94 | `SwapSeparators` (the three chained `replace` calls of `formato_valor`): on a string without 'X', every ',' becomes '.' and every '.' becomes ',', and all other characters stay |
| Text.SwapSeparatorsInvolution | app.py:94-97 | `SwapSeparators`: on a string without 'X', the swap introduces no 'X' and applying it twice gives back the original string |
| Text.SwapSeparatorsConcat | app.py:94-97 | `SwapSeparators`: the swap distributes over concatenation, so the `%` suffix and `US$ ` prefix of `formato_valor` pass through it unchanged |
| Text.IntToString | app.py:54 | `str(n)` is non-empty and starts with '-' exactly when n is negative |
| Text.IntToStringRoundTrip | app.py:290 | parsing the decimal text of an integer gives back the integer |
| Table.SortCorrect | app.py:85 | `Sort` (`sort_values`): the result is ordered by the chosen key and is a permutation (same multiset) of its input |
| Table.SortMembers | app.py:85 | `Sort` (`sort_values`): sorting keeps the length and exactly the same rows |
| Table.Select | app.py:247 | a boolean mask keeps exactly the rows satisfying the condition, each as many times as the table holds it, and never grows the table |
| Table.SelectSorted | app.py:325 | `Select` (`df[mask]`): masking a sorted table leaves it sorted |
| WorldBank.ReadFirstPage | app.py:58-62 | `ReadFirstPage` (the page-1 test of `obtener_datos_bm`): page 1 starts collection only with a non-empty row list |
| WorldBank.IndicatorTableFirstPage | app.py:58-62 | `IndicatorTable` (one indicator's pass of `obtener_datos_bm`): a page 1 that is not an envelope, has null data or no rows drops the indicator; an envelope with rows and no `pages` entry yields exactly the normalised page-1 rows |
| WorldBank.LaterPagesAbortSticks | app.py:63-82 | `LaterPages` (the loop over pages 2..`pages`) with the `except` branch: once a later page raises, the indicator contributes nothing whatever the later pages hold |
| WorldBank.LaterPagesSucceed | app.py:63-66 | `LaterPages` (the loop over pages 2..`pages`): collecting pages 2..hi succeeds exactly when no page in that range raises |
| WorldBank.LaterPagesEmptyPageAddsNothing | app.py:65-66 | `LaterPages` (the `len(js) > 1 and js[1]` test): a later page that is a short array, has null or empty data, or is an object with at most one key adds no rows |
| WorldBank.LaterPagesInOrder | app.py:63-66 | `LaterPages` (`all_rows.extend`): the rows collected up to page p are those up to page p-1 followed by page p's rows, and they are a prefix of the final collection |
| WorldBank.ReverseRegistryLookup | app.py:74 | `ReverseRegistry` (the `rev` comprehension): the reversed map has exactly the registry's codes as keys, and each maps to the name of the last registry entry with that code |
| WorldBank.ReverseRegistryInverts | app.py:74 | `ReverseRegistry`: with distinct codes, the reversed map sends each code back to its own country name |
| WorldBank.PaisesResolve | app.py:21-27 | `ReverseRegistry` applied to `Paises` (`PAISES`): every code in the country registry maps back to its own Spanish name |
| WorldBank.NormalizeAllMembers | app.py:71-78 | `NormalizeAll`/`Normalize` (the `df_clean` steps): normalisation never adds rows, and a row survives exactly when some raw row has a coercible year and value and becomes it |
| WorldBank.NormalizeAllConcat | app.py:71-78 | `NormalizeAll` (the `df_clean` steps and `dropna`): the cleaned rows of two concatenated raw lists are the cleaned rows of the first followed by those of the second, so each surviving raw row yields its own row, in order, duplicates included |
| WorldBank.NormalizeRowFields | app.py:71-78 | `NormalizeRow` (one row of `df_clean`): a normalised row keeps the ISO3 code, carries the indicator name and the coerced year and value, and its Pais is the registry name for its code when there is one and otherwise the raw country field |
| WorldBank.FetchIndicator | app.py:56-79 | the page loop of `obtener_datos_bm` returns `IndicatorTable`: page 1's rows then pages 2..`pages` in order, normalised, or nothing if a page raised |
| WorldBank.BuildCombinedTable | app.py:51-86 | the indicator loop of `obtener_datos_bm` returns `CombinedTable` (surviving tables concatenated and sorted), and no rows when no indicator survives |
| WorldBank.FlattenMembers | app.py:85 | `Flatten` (`pd.concat`): a row is in the concatenation exactly when it is in one of the tables |
| WorldBank.FlattenConcat | app.py:85 | `Flatten` (`pd.concat`): concatenating two lists of tables gives the rows of the first list followed by the rows of the second, so every row of every table is kept, in order, with its multiplicity |
| WorldBank.SurvivingProvenance | app.py:56-79 | `Surviving` (the list `dfs`): each collected table is the table that one of the indicators produced |
| WorldBank.SurvivingComplete | app.py:56-79 | `Surviving` (the list `dfs`): every indicator whose table is defined has that table collected |
| WorldBank.SurvivingNone | app.py:84-86 | `Surviving` and `CombinedTable` (the empty-`dfs` branch): when every indicator contributes nothing, nothing is collected and the combined table has no rows |
| WorldBank.IndicatorRowsNamed | app.py:73 | `IndicatorTable` (`df_clean['Indicador'] = nombre_ind`): every row of an indicator's table carries that indicator's name |
| WorldBank.CombinedTableCorrect | app.py:79-86 | `CombinedTable` (the result of `obtener_datos_bm`): the combined table is sorted by (Indicador, Pais, Anio), is a permutation of the concatenated surviving tables, each row comes from the table of the indicator it names, and every row of every indicator's defined table is in it |
| WorldBank.DfAll | app.py:88 | `DF_ALL`, the load over `PAISES`, `INDICADORES` and 2000..2024: sorted by (Indicador, Pais, Anio), and every row names one of the listed indicators |
| WorldBank.LoadDfAll | app.py:51-88 | running the indicator loop on the two registries and the default years yields `DfAll` |
| WorldBank.DefaultDateRange | app.py:39-54 | every request of the load asks for the years written `2000:2024` |
| Kpis.FilterExact | app.py:246-248 | `Filter` (`_filtra_transforma`): the filter keeps exactly the rows with the indicator, a selected country and a0 <= Anio <= a1, each as often as the table holds it, and nothing when a1 < a0 |
| Kpis.SelectionCorrect | app.py:259-263 | `Selection` (the country's rows of `actualizar_kpis`, sorted by year): a year-sorted permutation of its filtered rows |
| Kpis.KpisEmptyIff | app.py:259-261 | `ComputeKpis` (`actualizar_kpis`): the panel is empty exactly when no row of the indicator and country lies in [a0, a1] |
| Kpis.KpisLastAndFirst | app.py:263-275 | `ComputeKpis` (`actualizar_kpis`): when the panel has data, the last value and year come from a row of the highest year in range, the first ones from a row of the lowest, and a0 <= first year <= last year <= a1 |
| Kpis.KpisChange | app.py:267-272 | `ComputeKpis` (`actualizar_kpis`): when the panel has data, one row gives no change; otherwise the previous row is the country's row just before the last in year order, the absolute change is last minus its value, and the percent change is `PercentChange` of the two |
| Kpis.PercentChangeInverts | app.py:269 | `PercentChange` (the percent change of `actualizar_kpis`): absent exactly when the previous value is 0, and applying it to the previous value gives back the last value |
| Kpis.KpisGrowth | app.py:274-277 | `ComputeKpis` (`actualizar_kpis`): when the panel has data, the CAGR exponent is max(1, last year - first year), so at least 1; the growth ratio is absent exactly when the first value is 0 and otherwise is the last value over the first; the growth rate is a number exactly when the first value is not 0 and the ratio is not negative or the years span at most one |
| Kpis.FirstOf | app.py:285-286 | `FirstOf` (the position lookup of the rank): the first index holding the country, or none exactly when the country has no row |
| Kpis.RankingMembers | app.py:279-283 | `Ranking` (the year's rows sorted by value, descending): the ranking holds exactly the indicator's rows of that year |
| Kpis.RankBounds | app.py:279-286 | `RankOf` (the rank of `actualizar_kpis`): a defined rank lies in [1, total]; total is the number of the indicator's rows in that year; the rank is above the count of strictly larger values and at most the count of values at least as large as the country's |
| Kpis.RankDefinedIff | app.py:279-286 | `RankOf`: the country is ranked exactly when it has a row of the indicator in that year |
| Kpis.KpisRankDefined | app.py:279-287 | `ComputeKpis` with `RankOf`: with a non-empty selection the rank is taken in the country's last year and is always defined, between 1 and the total |
| Kpis.FormatValueCases | app.py:90-97 | `FormatValue` (`formato_valor`): a missing value gives 'N/A'; a name with '%' gets the '%' suffix even if it also has 'US$'; otherwise a name with 'US$' gets the 'US$ ' prefix; the affixes survive the separator swap |
| Kpis.YearTextRoundTrip | app.py:290 | `YearText` (`f"Año {y}"`): the year label starts with 'Año ', is never 'N/A', and reads back as the year |
| Kpis.Render | app.py:260-295 | the panel's eight outputs: all eight are 'N/A' exactly for the empty panel, and with data the second output is the `Año …` label of the last year |
| Kpis.RenderShape | app.py:289-295 | `Render` (the return of `actualizar_kpis`): the eight 'N/A' exactly for the empty panel; otherwise the year output is the last year's label and a defined rank renders as '#…' |
| Kpis.RenderGrowth | app.py:277-293 | `Render`: the growth output is 'N/A' exactly when the growth rate is not a number (`GrowthDefined`) |
| Kpis.KpiTextsEmptyIff | app.py:259-295 | `KpiTexts` (`actualizar_kpis` end to end): the eight outputs are all 'N/A' exactly when nothing is selected; with a selection the year output is the last year's label and the rank output always starts with '#' |
| Kpis.KpiTextsGrowth | app.py:274-293 | `KpiTexts` (`actualizar_kpis` end to end): with data, the growth output is 'N/A' exactly when the first value is 0, or the last value over the first is negative and the years span at least two |
| Charts.ExportFileName | app.py:244 | the file name of `descargar`: 10 characters longer than the indicator name, starts with 'latam_' and ends with '.csv' |
| Charts.ExportFileNameChars | app.py:244 | `ExportFileName`: the middle of the name is the indicator with every blank turned into '_', and the name has no blank |
| Charts.ExportFileNameInjective | app.py:244 | `ExportFileName`: two indicator names without '_' never share an export file name |
| Charts.ExportRowsExact | app.py:243 | `ExportRows` (the rows `descargar` writes): exactly the indicator's rows, each as often as the table does |
| Charts.Countries | app.py:325 | `Countries` (the `groupby('Pais')` keys of `fig_barras`): exactly the countries that occur, each once |
| Charts.ArgMax | app.py:325 | `idxmax`: the index of a largest value, with every earlier value strictly smaller |
| Charts.ArgMaxIsBest | app.py:325 | `ArgMax` on one country's group: on the year-sorted rows, `idxmax` picks a row of that country with its largest value, in the earliest year that value occurs |
| Charts.PickAllBest | app.py:325 | `PickAll` (`df.loc[df.groupby('Pais')['Valor'].idxmax()]`): each picked row is a row of its country with that country's largest value, in the earliest year that value occurs |
| Charts.PickAllOnePerCountry | app.py:325-326 | `PickAll`: each country that occurs gets exactly one bar row and no other country gets any |
| Charts.BarRowsCorrect | app.py:321-329 | `BarRows` (`fig_barras`' data): no bars exactly when no row of the indicator is in range; otherwise (`BarChartSpec`) the bars are sorted by value descending, each is its country's maximum in range in the earliest year it occurs, and each candidate country has exactly one bar and no other country any |

## Left out

- The HTTP request (`requests.get`, its URL, timeout and `raise_for_status`, app.py:45-49) is not modelled. It is the `fetch` parameter, whose `FetchError` stands for any exception.
- `lru_cache` (app.py:44) is not modelled. One load requests each (query, page) pair once, so the cache's hits, its eviction beyond 64 entries and its not caching a call that raised change nothing there. The in-place `extend` of the cached page-1 list through the `all_rows` alias (app.py:62-66) is not modelled either. The loader runs once, so the cache never returns a list that was already extended.
- A page that decodes to a JSON string or number is not modelled. A page's data list is assumed to hold objects with the four fields `countryiso3code`, `country`, `date`, `value`. A missing column, which would raise `KeyError` at app.py:71, is not modelled.
- The raw `country` field is a JSON object `{id, value}` in the API. It is modelled as a string. The model takes it as the fallback name unchanged, as the code does.
- `WorldBank.CombinedTableCorrect`: a row whose ISO3 code is not in the registry keeps that object as its `Pais` (app.py:75). The sort by (Indicador, Pais, Anio) at app.py:85 runs outside the `try`, and pandas cannot order a column of dicts, so in the source such a row makes the whole load raise and `DF_ALL` is never built. The model instead sorts the fallback string and returns a sorted table. With the shipped registry, every code the load asks for resolves (`WorldBank.PaisesResolve`), so the fallback is reached only if the API answers with a code it was not asked for.
- `pd.to_numeric` (app.py:76-77) is an abstract coercion. Years are integers in the model, so a fractional year is not represented.
- `print` of the error in the `except` branch (app.py:80-82) is left out. The failing indicator simply contributes nothing.
- Values are exact `real` numbers, not IEEE doubles. The arithmetic of the change and growth KPIs (app.py:268-276) is therefore exact in the model and rounded in the source. `Kpis.PercentChangeInverts` holds exactly over reals; over floats it holds only approximately.
- `Kpis.KpisGrowth` does not state the CAGR value itself. Floating-point rendering (`f"{v:,.2f}"`) and the fractional power are parameters. So is NaN, beyond its use as "missing".
- A negative `last / first` ratio with `n_years >= 2` gives NaN in the source, because the values are numpy floats. So its growth output is 'N/A', and the model does the same (`Kpis.GrowthDefined`, `Kpis.KpiTextsGrowth`). That the numpy float power, and not Python's, is the one applied is an assumption about which value types pandas returns from `iloc`.
- `Kpis.RankBounds`: pandas' `sort_values` is not stable, so the position among equal values is not determined. The model sorts stably, and this contract states the rank only up to ties, through the two counts.
- `Charts.BarRowsCorrect`: the order among bars of equal value is not stated. `groupby` orders countries by name and the value sort is not stable. The model keeps first-appearance order.
- `Charts.PickAllBest`: among rows of one country with the same year and the same largest value, which one `idxmax` picks depends on the unstable year sort. The contract fixes only the value and the year.
- The export's CSV body (`df.to_csv`, app.py:244) is left out. Only the rows and the file name are modelled.
- The Dash layout, callback wiring and Plotly figures (app.py:16-19, 102-230, 297-356) are UI. This includes the line chart and the choropleth map. The line chart's data is the selection filter (`Kpis.Filter`).
- The module-level `DF_ALL` (app.py:88) is not modelled as global state. Each operation takes the table as a parameter. `WorldBank.DfAll` is that table and `WorldBank.LoadDfAll` is the load that produces it.

=== FILE: charts.dfy ===
/** What the download button and the bar chart take from the combined table:
    the export file name and rows (`descargar`), and the one-row-per-country
    pick of the bar chart (`fig_barras`). */
module Charts {
  import opened Wrappers
  import opened Table
  import opened Text

  // ---------------------------------------------------------------------
  // Export
  // ---------------------------------------------------------------------

  /** `f"latam_{indicador.replace(' ', '_')}.csv"`. */
  function ExportFileName(ind: string): (name: string)
    ensures |name| == |ind| + 10
    ensures name[..6] == "latam_" && name[|name| - 4..] == ".csv"
  {
    "latam_" + Replace(ind, ' ', '_') + ".csv"
  }

  /** The name holds the indicator with every blank turned into '_' and
      nothing else changed, so it has no blank at all. */
  lemma ExportFileNameChars(ind: string)
    ensures forall i :: 0 <= i < |ind| ==>
      ExportFileName(ind)[6 + i] == (if ind[i] == ' ' then '_' else ind[i])
    ensures ' ' !in ExportFileName(ind)
  {
    var name := ExportFileName(ind);
    var mid := Replace(ind, ' ', '_');
    assert name == "latam_" + mid + ".csv";
    ReplaceAt(ind, ' ', '_');
    forall i | 0 <= i < |ind| ensures name[6 + i] == (if ind[i] == ' ' then '_' else ind[i]) {
      assert name[6 + i] == mid[i];
    }
    forall i | 0 <= i < |name| ensures name[i] != ' ' {
      if 6 <= i < 6 + |mid| { assert name[i] == mid[i - 6]; }
      else if i < 6 { assert name[i] == "latam_"[i]; }
      else { assert name[i] == ".csv"[i - 6 - |mid|]; }
    }
  }

  /** Two indicator names without '_' never share an export file name. */
  lemma ExportFileNameInjective(a: string, b: string)
    requires '_' !in a && '_' !in b
    requires ExportFileName(a) == ExportFileName(b)
    ensures a == b
  {
    ExportFileNameChars(a);
    ExportFileNameChars(b);
    assert |a| == |b|;
    forall i | 0 <= i < |a| ensures a[i] == b[i] {
      assert ExportFileName(a)[6 + i] == ExportFileName(b)[6 + i];
      assert a[i] != '_' && b[i] != '_';
    }
  }

  /** `DF_ALL[DF_ALL['Indicador'] == indicador]`: every year and every
      country of one indicator, in table order. */
  function ExportRows(t: seq<Row>, ind: string): seq<Row> {
    Select(t, (r: Row) => r.indicador == ind)
  }

  lemma ExportRowsExact(t: seq<Row>, ind: string)
    ensures forall r :: r in ExportRows(t, ind) <==> r in t && r.indicador == ind
    ensures forall r :: r in t && r.indicador == ind ==>
      multiset(ExportRows(t, ind))[r] == multiset(t)[r]
  {}

  // ---------------------------------------------------------------------
  // Bar chart: one row per country, the one with the largest value
  // ---------------------------------------------------------------------

  /** The rows of one indicator in the chosen year range. */
  function Candidates(t: seq<Row>, ind: string, a0: int, a1: int): seq<Row> {
    Select(t, (r: Row) => r.indicador == ind && a0 <= r.anio <= a1)
  }

  /** The distinct countries of `s`, in order of first appearance. */
  function Countries(s: seq<Row>): (cs: seq<string>)
    ensures forall c :: c in cs <==> exists x :: x in s && x.pais == c
    ensures forall i, j :: 0 <= i < j < |cs| ==> cs[i] != cs[j]
  {
    if s == [] then []
    else
      var front := Countries(s[..|s| - 1]);
      assert forall x :: x in s <==> x in s[..|s| - 1] || x == s[|s| - 1] by {
        assert s == s[..|s| - 1] + [s[|s| - 1]];
      }
      if s[|s| - 1].pais in front then front else front + [s[|s| - 1].pais]
  }

  /** `idxmax`: the position of the first row with the largest value. */
  function ArgMax(rows: seq<Row>): (k: nat)
    requires rows != []
    ensures k < |rows|
    ensures forall j :: 0 <= j < |rows| ==> rows[j].valor <= rows[k].valor
    ensures forall j :: 0 <= j < k ==> rows[j].valor < rows[k].valor
  {
    if |rows| == 1 then 0
    else
      var k := ArgMax(rows[1..]);
      assert forall j :: 1 <= j < |rows| ==> rows[j] == rows[1..][j - 1];
      if rows[0].valor >= rows[1..][k].valor then 0 else k + 1
  }

  function OfCountry(s: seq<Row>, c: string): seq<Row> {
    Select(s, (r: Row) => r.pais == c)
  }

  /** How many rows of `s` belong to country `c`. */
  function CountryRows(s: seq<Row>, c: string): nat {
    Count(s, (r: Row) => r.pais == c)
  }

  /** `r` is a row of `cand` holding its country's largest value, in the
      earliest year that value occurs. */
  predicate IsBest(cand: seq<Row>, r: Row) {
    r in cand &&
    (forall x :: x in cand && x.pais == r.pais ==> x.valor <= r.valor) &&
    (forall x :: x in cand && x.pais == r.pais && x.valor == r.valor ==> r.anio <= x.anio)
  }

  /** For each country in `cs`, the row at `idxmax` of its rows in `s`. */
  function PickAll(s: seq<Row>, cs: seq<string>): seq<Row> {
    if cs == [] then []
    else
      var rows := OfCountry(s, cs[0]);
      (if rows == [] then [] else [rows[ArgMax(rows)]]) + PickAll(s, cs[1..])
  }

  /** `df.sort_values('Anio').groupby('Pais')['Valor'].idxmax()`, then those
      rows sorted by value, largest first; `None` is the "no data" figure. */
  function BarRows(t: seq<Row>, ind: string, a0: int, a1: int): Option<seq<Row>> {
    var cand := Candidates(t, ind, a0, a1);
    if cand == [] then None
    else
      var byYear := Sort(cand, ByYear);
      Some(Sort(PickAll(byYear, Countries(byYear)), ByValueDesc))
  }

  /** Each picked row is a row of its country whose value no other row of
      that country exceeds, and it is the earliest year with that value. */
  lemma {:induction false} PickAllBest(s: seq<Row>, cs: seq<string>, r: Row)
    requires Sorted(s, ByYear)
    requires r in PickAll(s, cs)
    ensures IsBest(s, r) && r.pais in cs
  {
    var rows := OfCountry(s, cs[0]);
    var head := if rows == [] then [] else [rows[ArgMax(rows)]];
    assert PickAll(s, cs) == head + PickAll(s, cs[1..]);
    if r in head {
      ArgMaxIsBest(s, cs[0]);
    } else {
      PickAllBest(s, cs[1..], r);
    }
  }

  /** On a year-sorted table, `idxmax` over one country's rows picks that
      country's best row. */
  lemma ArgMaxIsBest(s: seq<Row>, c: string)
    requires Sorted(s, ByYear)
    requires OfCountry(s, c) != []
    ensures var rows := OfCountry(s, c);
      IsBest(s, rows[ArgMax(rows)]) && rows[ArgMax(rows)].pais == c
  {
    var rows := OfCountry(s, c);
    var k := ArgMax(rows);
    var r := rows[k];
    assert r in rows;
    SelectSorted(s, (x: Row) => x.pais == c, ByYear);
    assert Sorted(rows, ByYear);
    forall x | x in s && x.pais == r.pais ensures x.valor <= r.valor {
      assert x in rows;
      var j :| 0 <= j < |rows| && rows[j] == x;
    }
    forall x | x in s && x.pais == r.pais && x.valor == r.valor ensures r.anio <= x.anio {
      assert x in rows;
      var j :| 0 <= j < |rows| && rows[j] == x;
      EarliestOfMax(rows, k, j);
    }
  }

  /** In a year-sorted sequence, a row with the same value as the first
      maximum at `k` is no earlier than it. */
  lemma EarliestOfMax(rows: seq<Row>, k: nat, j: nat)
    requires Sorted(rows, ByYear) && k < |rows| && j < |rows|
    requires forall i :: 0 <= i < k ==> rows[i].valor < rows[k].valor
    requires rows[j].valor == rows[k].valor
    ensures rows[k].anio <= rows[j].anio
  {
    if j > k {
      assert Le(ByYear, rows[k], rows[j]);
    }
  }

  /** A country that occurs in `s` contributes exactly one row, of its own. */
  lemma PickAllHead(s: seq<Row>, cs: seq<string>)
    requires cs != [] && exists x :: x in s && x.pais == cs[0]
    ensures |PickAll(s, cs)| >= 1 && PickAll(s, cs)[0].pais == cs[0]
    ensures PickAll(s, cs)[1..] == PickAll(s, cs[1..])
  {
    var rows := OfCountry(s, cs[0]);
    var x :| x in s && x.pais == cs[0];
    assert x in rows;
    assert rows[ArgMax(rows)] in rows;
  }

  lemma DistinctTail(cs: seq<string>)
    requires cs != []
    requires forall i, j :: 0 <= i < j < |cs| ==> cs[i] != cs[j]
    ensures forall i, j :: 0 <= i < j < |cs[1..]| ==> cs[1..][i] != cs[1..][j]
    ensures cs[0] !in cs[1..]
  {
    var rest := cs[1..];
    forall i, j | 0 <= i < j < |rest| ensures rest[i] != rest[j] {
      assert rest[i] == cs[i + 1] && rest[j] == cs[j + 1];
    }
  }

  lemma CountryRowsCons(s: seq<Row>, c: string)
    requires s != []
    ensures CountryRows(s, c) == (if s[0].pais == c then 1 else 0) + CountryRows(s[1..], c)
  {}

  /** With distinct countries that all occur in `s`, each of them gets
      exactly one row and no other country gets any. */
  lemma {:induction false} PickAllOnePerCountry(s: seq<Row>, cs: seq<string>, c: string)
    requires forall i, j :: 0 <= i < j < |cs| ==> cs[i] != cs[j]
    requires forall d :: d in cs ==> exists x :: x in s && x.pais == d
    ensures CountryRows(PickAll(s, cs), c) == if c in cs then 1 else 0
  {
    if cs != [] {
      var picked := PickAll(s, cs);
      assert cs[0] in cs;
      PickAllHead(s, cs);
      DistinctTail(cs);
      var rest := cs[1..];
      forall d | d in rest ensures exists x :: x in s && x.pais == d {
        assert d in cs;
      }
      PickAllOnePerCountry(s, rest, c);
      assert c in cs <==> c == cs[0] || c in cs[1..] by {
        assert cs == [cs[0]] + cs[1..];
      }
      CountryRowsCons(picked, c);
    }
  }

  /** What the bars promise about the candidate rows: sorted by value,
      largest first; each bar is its country's best candidate row; each
      candidate country has exactly one bar and no other country has any. */
  ghost predicate BarChartSpec(cand: seq<Row>, bars: seq<Row>) {
    Sorted(bars, ByValueDesc) &&
    (forall r :: r in bars ==> IsBest(cand, r)) &&
    (forall c :: CountryRows(bars, c) == if exists x :: x in cand && x.pais == c then 1 else 0)
  }

  /** The bar chart is empty ("no data") exactly when no row of the indicator
      falls in the year range; otherwise its rows meet `BarChartSpec`. */
  lemma BarRowsCorrect(t: seq<Row>, ind: string, a0: int, a1: int)
    ensures BarRows(t, ind, a0, a1).None? <==>
      forall r :: r in t ==> !(r.indicador == ind && a0 <= r.anio <= a1)
    ensures BarRows(t, ind, a0, a1).Some? ==>
      BarChartSpec(Candidates(t, ind, a0, a1), BarRows(t, ind, a0, a1).value)
  {
    BarRowsEmpty(t, ind, a0, a1);
    BarRowsSpec(t, ind, a0, a1);
  }

  lemma BarRowsEmpty(t: seq<Row>, ind: string, a0: int, a1: int)
    ensures BarRows(t, ind, a0, a1).None? <==>
      forall r :: r in t ==> !(r.indicador == ind && a0 <= r.anio <= a1)
  {
    var cand := Candidates(t, ind, a0, a1);
    if cand != [] {
      assert cand[0] in cand;
    }
  }

  lemma BarRowsSpec(t: seq<Row>, ind: string, a0: int, a1: int)
    ensures BarRows(t, ind, a0, a1).Some? ==>
      BarChartSpec(Candidates(t, ind, a0, a1), BarRows(t, ind, a0, a1).value)
  {
    var cand := Candidates(t, ind, a0, a1);
    if cand != [] {
      BarRowsPick(cand);
    }
  }

  /** The bar-chart properties for a non-empty candidate table. */
  lemma BarRowsPick(cand: seq<Row>)
    ensures var byYear := Sort(cand, ByYear);
      BarChartSpec(cand, Sort(PickAll(byYear, Countries(byYear)), ByValueDesc))
  {
    var byYear := Sort(cand, ByYear);
    SortCorrect(cand, ByYear);
    SortMembers(cand, ByYear);
    var cs := Countries(byYear);
    var picked := PickAll(byYear, cs);
    var bars := Sort(picked, ByValueDesc);
    SortCorrect(picked, ByValueDesc);
    SortMembers(picked, ByValueDesc);
    forall r | r in bars ensures IsBest(cand, r) {
      PickAllBest(byYear, cs, r);
    }
    forall c ensures CountryRows(bars, c) == if exists x :: x in cand && x.pais == c then 1 else 0 {
      PickAllOnePerCountry(byYear, cs, c);
      CountPermutation(bars, picked, (r: Row) => r.pais == c);
    }
  }
}

=== FILE: kpis.dfy ===
/** The selection filter, the KPI panel (`actualizar_kpis`) and the value
    formatting (`formato_valor`). The combined table is a parameter. Number
    rendering `f"{v:,.2f}"` is the parameter `render`, and the fractional
    power `x ** (1 / n)` is the parameter `nthRoot`. */
module Kpis {
  import opened Wrappers
  import opened Table
  import opened Text

  // ---------------------------------------------------------------------
  // Selection filter
  // ---------------------------------------------------------------------

  predicate Selected(r: Row, ind: string, paises: set<string>, a0: int, a1: int) {
    r.indicador == ind && r.pais in paises && a0 <= r.anio <= a1
  }

  /** `_filtra_transforma`: the rows of one indicator, of the chosen
      countries, with a year in [a0, a1], in table order. */
  function Filter(t: seq<Row>, ind: string, paises: set<string>, a0: int, a1: int): seq<Row> {
    Select(t, r => Selected(r, ind, paises, a0, a1))
  }

  /** The filter keeps exactly the matching rows, each as often as the table
      holds it, and nothing else. */
  lemma FilterExact(t: seq<Row>, ind: string, paises: set<string>, a0: int, a1: int)
    ensures forall r :: r in Filter(t, ind, paises, a0, a1) <==>
      r in t && r.indicador == ind && r.pais in paises && a0 <= r.anio <= a1
    ensures forall r :: (multiset(Filter(t, ind, paises, a0, a1))[r] ==
      if r.indicador == ind && r.pais in paises && a0 <= r.anio <= a1 then multiset(t)[r] else 0)
    ensures a1 < a0 ==> Filter(t, ind, paises, a0, a1) == []
  {
    if a1 < a0 && Filter(t, ind, paises, a0, a1) != [] {
      assert Filter(t, ind, paises, a0, a1)[0] in Filter(t, ind, paises, a0, a1);
    }
  }

  // ---------------------------------------------------------------------
  // KPIs as values
  // ---------------------------------------------------------------------

  /** Year-over-year change: `var_abs` and `var_pct` (`None` when the
      previous value is 0). */
  datatype Change = Change(absolute: real, percent: Option<real>)

  /** The regional rank: no rows at all in that year, or the 1-based position
      of the country (if it has a row) among `total` rows. */
  datatype Rank = NoRankRows | Ranked(position: Option<nat>, total: nat)

  /** The KPI panel before rendering; `NoData` is the eight 'N/A' outputs.
      `cagrRatio` is `last / first`, from which the growth rate is
      `(cagrRatio ** (1 / nYears) - 1) * 100`. */
  datatype Panel =
    | NoData
    | Panel(lastValue: real, lastYear: int, change: Option<Change>,
           firstValue: real, firstYear: int, nYears: int, cagrRatio: Option<real>, rank: Rank)

  /** `df_ind.sort_values('Anio')`. */
  function Selection(t: seq<Row>, ind: string, pais: string, a0: int, a1: int): seq<Row> {
    Sort(Filter(t, ind, {pais}, a0, a1), ByYear)
  }

  /** All rows of the indicator in `year`, any country (`df_last_year`). */
  function RankRows(t: seq<Row>, ind: string, year: int): seq<Row> {
    Select(t, (r: Row) => r.indicador == ind && r.anio == year)
  }

  /** `df_last_year.sort_values('Valor', ascending=False)`. */
  function Ranking(t: seq<Row>, ind: string, year: int): seq<Row> {
    Sort(RankRows(t, ind, year), ByValueDesc)
  }

  /** The index of the first row of `pais` (`fila['rank'].iloc[0] - 1`). */
  function FirstOf(s: seq<Row>, pais: string): (k: Option<nat>)
    ensures k.Some? ==> (k.value < |s| && s[k.value].pais == pais &&
      forall j :: 0 <= j < k.value ==> s[j].pais != pais)
    ensures k.None? <==> forall j :: 0 <= j < |s| ==> s[j].pais != pais
  {
    if s == [] then None
    else if s[0].pais == pais then Some(0)
    else match FirstOf(s[1..], pais)
      case None => None
      case Some(k) => Some(k + 1)
  }

  function RankOf(t: seq<Row>, ind: string, pais: string, year: int): Rank {
    var rows := Ranking(t, ind, year);
    if rows == [] then NoRankRows
    else Ranked(match FirstOf(rows, pais) case Some(k) => Some(k + 1) case None => None, |rows|)
  }

  /** `actualizar_kpis` before rendering. */
  function ComputeKpis(t: seq<Row>, ind: string, pais: string, a0: int, a1: int): Panel {
    var sel := Selection(t, ind, pais, a0, a1);
    if sel == [] then NoData
    else KpisOf(sel, RankOf(t, ind, pais, sel[|sel| - 1].anio))
  }

  /** The panel's values from the year-ordered selection. */
  function KpisOf(sel: seq<Row>, rank: Rank): Panel
    requires sel != []
  {
    var last, first := sel[|sel| - 1], sel[0];
    Panel(last.valor, last.anio, ChangeOf(sel), first.valor, first.anio,
         if last.anio - first.anio > 1 then last.anio - first.anio else 1,
         if first.valor != 0.0 then Some(last.valor / first.valor) else None,
         rank)
  }

  /** `var_pct`: the change from `prev` to `last` in percent of `prev`;
      `None` (NaN) when `prev` is 0. */
  function PercentChange(last: real, prev: real): Option<real> {
    if prev != 0.0 then Some((last - prev) / prev * 100.0) else None
  }

  /** The percent change is defined exactly when the previous value is not
      0, and applying it to the previous value gives back the last one. */
  lemma PercentChangeInverts(last: real, prev: real)
    ensures PercentChange(last, prev).None? <==> prev == 0.0
    ensures PercentChange(last, prev).Some? ==> prev + prev * PercentChange(last, prev).value / 100.0 == last
  {
    if prev != 0.0 {
      var p := (last - prev) / prev;
      assert p * prev == last - prev;
      assert prev * (p * 100.0) / 100.0 == prev * p;
    }
  }

  /** The change against the previous row, when there is one. */
  function ChangeOf(sel: seq<Row>): Option<Change> {
    if |sel| >= 2 then
      var last, prev := sel[|sel| - 1].valor, sel[|sel| - 2].valor;
      Some(Change(last - prev, PercentChange(last, prev)))
    else None
  }

  /** The selection in year order is a year-sorted permutation of the
      country's filtered rows. */
  lemma SelectionCorrect(t: seq<Row>, ind: string, pais: string, a0: int, a1: int)
    ensures Sorted(Selection(t, ind, pais, a0, a1), ByYear)
    ensures multiset(Selection(t, ind, pais, a0, a1)) == multiset(Filter(t, ind, {pais}, a0, a1))
    ensures forall r :: r in Selection(t, ind, pais, a0, a1) <==>
      r in t && r.indicador == ind && r.pais == pais && a0 <= r.anio <= a1
  {
    SortCorrect(Filter(t, ind, {pais}, a0, a1), ByYear);
    SortMembers(Filter(t, ind, {pais}, a0, a1), ByYear);
  }

  /** The panel is empty exactly when no row of the indicator and country
      lies in [a0, a1]. */
  lemma KpisEmptyIff(t: seq<Row>, ind: string, pais: string, a0: int, a1: int)
    ensures ComputeKpis(t, ind, pais, a0, a1) == NoData <==>
      forall r :: r in t ==> !(r.indicador == ind && r.pais == pais && a0 <= r.anio <= a1)
  {
    SelectionCorrect(t, ind, pais, a0, a1);
    var sel := Selection(t, ind, pais, a0, a1);
    if sel != [] { assert sel[0] in sel; }
  }

  /** The reported last value and year come from a row of the highest year
      among the country's rows in range; the first value and year from one
      of the lowest year. */
  lemma KpisLastAndFirst(t: seq<Row>, ind: string, pais: string, a0: int, a1: int)
    ensures var k := ComputeKpis(t, ind, pais, a0, a1);
      k.Panel? ==> (
        (exists r :: r in t && r.indicador == ind && r.pais == pais && r.anio == k.lastYear && r.valor == k.lastValue) &&
        (exists r :: r in t && r.indicador == ind && r.pais == pais && r.anio == k.firstYear && r.valor == k.firstValue) &&
        a0 <= k.firstYear <= k.lastYear <= a1 &&
        forall r :: r in t && r.indicador == ind && r.pais == pais && a0 <= r.anio <= a1 ==>
          k.firstYear <= r.anio <= k.lastYear)
  {
    if ComputeKpis(t, ind, pais, a0, a1).Panel? {
      ComputeKpisOf(t, ind, pais, a0, a1);
      SelectionCorrect(t, ind, pais, a0, a1);
      var sel := Selection(t, ind, pais, a0, a1);
      var k := KpisOf(sel, RankOf(t, ind, pais, sel[|sel| - 1].anio));
      assert k.lastYear == sel[|sel| - 1].anio && k.lastValue == sel[|sel| - 1].valor;
      assert k.firstYear == sel[0].anio && k.firstValue == sel[0].valor;
      YearSortedEnds(sel);
      assert sel[0] in sel && sel[|sel| - 1] in sel;
    }
  }

  /** In a year-sorted sequence the first row has the lowest year and the
      last row the highest. */
  lemma YearSortedEnds(s: seq<Row>)
    requires s != [] && Sorted(s, ByYear)
    ensures forall x :: x in s ==> s[0].anio <= x.anio <= s[|s| - 1].anio
  {
    forall x | x in s ensures s[0].anio <= x.anio <= s[|s| - 1].anio {
      var j :| 0 <= j < |s| && s[j] == x;
      assert j == 0 || Le(ByYear, s[0], s[j]);
      assert j == |s| - 1 || Le(ByYear, s[j], s[|s| - 1]);
    }
  }

  /** With at least two rows, the absolute change is last minus the value of
      the row just before it in year order, and the percent change is that
      difference over the previous value times 100, defined only when the
      previous value is not 0; with one row neither is available. */
  lemma KpisChange(t: seq<Row>, ind: string, pais: string, a0: int, a1: int)
    ensures var k := ComputeKpis(t, ind, pais, a0, a1);
      var sel := Selection(t, ind, pais, a0, a1);
      k.Panel? ==> (
        (k.change.None? <==> |Filter(t, ind, {pais}, a0, a1)| == 1) &&
        (k.change.Some? ==>
          var prev := sel[|sel| - 2];
          prev in t && prev.indicador == ind && prev.pais == pais && a0 <= prev.anio <= k.lastYear &&
          k.change.value.absolute == k.lastValue - prev.valor &&
          k.change.value.percent == PercentChange(k.lastValue, prev.valor)))
  {
    if ComputeKpis(t, ind, pais, a0, a1).Panel? {
      ChangeCount(t, ind, pais, a0, a1);
      ChangePrevious(t, ind, pais, a0, a1);
      ChangeValues(t, ind, pais, a0, a1);
    }
  }

  lemma ChangeCount(t: seq<Row>, ind: string, pais: string, a0: int, a1: int)
    requires ComputeKpis(t, ind, pais, a0, a1).Panel?
    ensures ComputeKpis(t, ind, pais, a0, a1).change.None? <==> |Filter(t, ind, {pais}, a0, a1)| == 1
  {
    SortMembers(Filter(t, ind, {pais}, a0, a1), ByYear);
  }

  lemma ChangePrevious(t: seq<Row>, ind: string, pais: string, a0: int, a1: int)
    requires ComputeKpis(t, ind, pais, a0, a1).Panel?
    ensures var k := ComputeKpis(t, ind, pais, a0, a1);
      var sel := Selection(t, ind, pais, a0, a1);
      k.change.Some? ==>
        var prev := sel[|sel| - 2];
        prev in t && prev.indicador == ind && prev.pais == pais && a0 <= prev.anio <= k.lastYear
  {
    SelectionCorrect(t, ind, pais, a0, a1);
    var sel := Selection(t, ind, pais, a0, a1);
    if |sel| >= 2 {
      var prev := sel[|sel| - 2];
      assert prev in sel;
      assert Le(ByYear, prev, sel[|sel| - 1]);
    }
  }

  lemma ChangeValues(t: seq<Row>, ind: string, pais: string, a0: int, a1: int)
    requires ComputeKpis(t, ind, pais, a0, a1).Panel?
    ensures var k := ComputeKpis(t, ind, pais, a0, a1);
      var sel := Selection(t, ind, pais, a0, a1);
      k.change.Some? ==>
        var prev := sel[|sel| - 2];
        k.change.value.absolute == k.lastValue - prev.valor &&
        k.change.value.percent == PercentChange(k.lastValue, prev.valor)
  {
    ComputeKpisOf(t, ind, pais, a0, a1);
    var sel := Selection(t, ind, pais, a0, a1);
    ChangeOfValues(sel);
  }

  lemma ChangeOfValues(sel: seq<Row>)
    ensures ChangeOf(sel).Some? <==> |sel| >= 2
    ensures ChangeOf(sel).Some? ==>
      var last, prev := sel[|sel| - 1].valor, sel[|sel| - 2].valor;
      ChangeOf(sel).value.absolute == last - prev &&
      ChangeOf(sel).value.percent == PercentChange(last, prev)
  {}

  /** A non-empty panel is `KpisOf` the year-ordered selection. */
  lemma ComputeKpisOf(t: seq<Row>, ind: string, pais: string, a0: int, a1: int)
    requires ComputeKpis(t, ind, pais, a0, a1).Panel?
    ensures var sel := Selection(t, ind, pais, a0, a1);
      sel != [] &&
      ComputeKpis(t, ind, pais, a0, a1) == KpisOf(sel, RankOf(t, ind, pais, sel[|sel| - 1].anio))
  {}

  /** The CAGR exponent is `max(1, lastYear - firstYear)`, so at least 1; the
      growth ratio is missing exactly when the first value is 0 and otherwise
      is the last value over the first. */
  lemma KpisGrowth(t: seq<Row>, ind: string, pais: string, a0: int, a1: int)
    ensures var k := ComputeKpis(t, ind, pais, a0, a1);
      k.Panel? ==> (
        k.nYears >= 1 && k.nYears >= k.lastYear - k.firstYear &&
        (k.nYears == 1 || k.nYears == k.lastYear - k.firstYear) &&
        (k.cagrRatio.None? <==> k.firstValue == 0.0) &&
        (k.cagrRatio.Some? ==> k.cagrRatio.value == k.lastValue / k.firstValue) &&
        (GrowthDefined(k.cagrRatio, k.nYears) <==>
          k.firstValue != 0.0 && (0.0 <= k.lastValue / k.firstValue || k.lastYear - k.firstYear <= 1)))
  {
    if ComputeKpis(t, ind, pais, a0, a1).Panel? {
      ComputeKpisOf(t, ind, pais, a0, a1);
      var sel := Selection(t, ind, pais, a0, a1);
      KpisOfGrowth(sel, RankOf(t, ind, pais, sel[|sel| - 1].anio));
    }
  }

  lemma KpisOfGrowth(sel: seq<Row>, rank: Rank)
    requires sel != []
    ensures var k := KpisOf(sel, rank);
      k.nYears >= 1 && k.nYears >= k.lastYear - k.firstYear &&
      (k.nYears == 1 || k.nYears == k.lastYear - k.firstYear) &&
      (k.cagrRatio.None? <==> k.firstValue == 0.0) &&
      (k.cagrRatio.Some? ==> k.cagrRatio.value == k.lastValue / k.firstValue)
  {}

  /** A defined rank lies in [1, total], total counts every row of the
      indicator in that year, and the rank sits between the number of those
      rows with a strictly higher value (exclusive) and the number with a
      value at least as high (inclusive) as the country's ranked row. */
  lemma RankBounds(t: seq<Row>, ind: string, pais: string, year: int)
    ensures var rk := RankOf(t, ind, pais, year);
      var rows := RankRows(t, ind, year);
      rk.Ranked? && rk.position.Some? ==> (
        var pos := rk.position.value;
        1 <= pos <= rk.total && rk.total == |rows| &&
        exists r :: r in rows && r.pais == pais &&
          Count(rows, (x: Row) => x.valor > r.valor) < pos <= Count(rows, (x: Row) => x.valor >= r.valor))
  {
    if RankOf(t, ind, pais, year).Ranked? && RankOf(t, ind, pais, year).position.Some? {
      var rows := RankRows(t, ind, year);
      var s := Ranking(t, ind, year);
      SortCorrect(rows, ByValueDesc);
      RankingMembers(t, ind, year);
      var k := FirstOf(s, pais).value;
      assert RankOf(t, ind, pais, year) == Ranked(Some(k + 1), |s|);
      var r := s[k];
      assert r in s;
      assert r in rows;
      var above := (x: Row) => x.valor > r.valor;
      var atLeast := (x: Row) => x.valor >= r.valor;
      CountPermutation(rows, s, above);
      CountPermutation(rows, s, atLeast);
      DescendingPosition(s, k);
    }
  }

  /** In a sequence sorted by descending value, the row at index `k` has at
      most `k` rows above it and at least `k + 1` rows at or above it. */
  lemma DescendingPosition(s: seq<Row>, k: nat)
    requires Sorted(s, ByValueDesc) && k < |s|
    ensures Count(s, (x: Row) => x.valor > s[k].valor) <= k
    ensures Count(s, (x: Row) => x.valor >= s[k].valor) >= k + 1
  {
    StrictlyAbove(s, k);
    AtOrAbove(s, k);
  }

  lemma StrictlyAbove(s: seq<Row>, k: nat)
    requires Sorted(s, ByValueDesc) && k < |s|
    ensures Count(s, (x: Row) => x.valor > s[k].valor) <= k
  {
    var above := (x: Row) => x.valor > s[k].valor;
    var head, tail := s[..k], s[k..];
    assert s == head + tail;
    CountConcat(head, tail, above);
    CountAtMost(head, above);
    forall j | 0 <= j < |tail| ensures !above(tail[j]) {
      assert tail[j] == s[k + j];
      if j > 0 { assert Le(ByValueDesc, s[k], s[k + j]); }
    }
    CountNone(tail, above);
  }

  lemma AtOrAbove(s: seq<Row>, k: nat)
    requires Sorted(s, ByValueDesc) && k < |s|
    ensures Count(s, (x: Row) => x.valor >= s[k].valor) >= k + 1
  {
    var atLeast := (x: Row) => x.valor >= s[k].valor;
    var pre, post := s[..k + 1], s[k + 1..];
    assert s == pre + post;
    CountConcat(pre, post, atLeast);
    forall j | 0 <= j < |pre| ensures atLeast(pre[j]) {
      assert pre[j] == s[j];
      if j < k { assert Le(ByValueDesc, s[j], s[k]); }
    }
    CountAll(pre, atLeast);
  }

  /** A country without a row in that year gets no rank; one with a row
      always gets one. */
  lemma RankDefinedIff(t: seq<Row>, ind: string, pais: string, year: int)
    ensures (RankOf(t, ind, pais, year).Ranked? && RankOf(t, ind, pais, year).position.Some?) <==>
      exists r :: r in t && r.indicador == ind && r.anio == year && r.pais == pais
  {
    RankingMembers(t, ind, year);
    var rows := Ranking(t, ind, year);
    var k := FirstOf(rows, pais);
    if rows != [] && k.None? {
      forall r | r in t && r.indicador == ind && r.anio == year ensures r.pais != pais {
        assert r in rows;
      }
    }
    if exists r :: r in t && r.indicador == ind && r.anio == year && r.pais == pais {
      var r :| r in t && r.indicador == ind && r.anio == year && r.pais == pais;
      assert r in rows;
    }
  }

  /** The ranking holds exactly the indicator's rows of that year. */
  lemma RankingMembers(t: seq<Row>, ind: string, year: int)
    ensures forall r :: r in Ranking(t, ind, year) <==> r in t && r.indicador == ind && r.anio == year
    ensures |Ranking(t, ind, year)| == |RankRows(t, ind, year)|
  {
    SortMembers(RankRows(t, ind, year), ByValueDesc);
  }

  /** Whenever the panel has data, the country is ranked: the rank year is
      the country's own last year in range, so its last row is among the
      ranked rows. */
  lemma KpisRankDefined(t: seq<Row>, ind: string, pais: string, a0: int, a1: int)
    ensures var k := ComputeKpis(t, ind, pais, a0, a1);
      k.Panel? ==> (
        k.rank == RankOf(t, ind, pais, k.lastYear) &&
        k.rank.Ranked? && k.rank.position.Some? && 1 <= k.rank.position.value <= k.rank.total)
  {
    if ComputeKpis(t, ind, pais, a0, a1).Panel? {
      KpisLastAndFirst(t, ind, pais, a0, a1);
      var k := ComputeKpis(t, ind, pais, a0, a1);
      RankDefinedIff(t, ind, pais, k.lastYear);
      RankBounds(t, ind, pais, k.lastYear);
    }
  }

  // ---------------------------------------------------------------------
  // Rendering
  // ---------------------------------------------------------------------

  /** `formato_valor`: 'N/A' for a missing value; otherwise the rendered
      number with a '%' suffix when the indicator name has '%', else a
      'US$ ' prefix when it has 'US$', with the separators swapped. */
  function FormatValue(name: string, v: Option<real>, render: real -> string): string {
    match v
    case None => "N/A"
    case Some(x) =>
      if '%' in name then SwapSeparators(render(x) + "%")
      else if Contains(name, "US$") then SwapSeparators("US$ " + render(x))
      else SwapSeparators(render(x))
  }

  /** The three branches: '%' is tested first, so a name with both '%' and
      'US$' gets the '%' suffix; the affixes survive the separator swap. */
  lemma FormatValueCases(name: string, x: real, render: real -> string)
    ensures FormatValue(name, None, render) == "N/A"
    ensures '%' in name ==> FormatValue(name, Some(x), render) == SwapSeparators(render(x)) + "%"
    ensures '%' !in name && Contains(name, "US$") ==>
      FormatValue(name, Some(x), render) == "US$ " + SwapSeparators(render(x))
    ensures '%' !in name && !Contains(name, "US$") ==>
      FormatValue(name, Some(x), render) == SwapSeparators(render(x))
  {
    SwapSeparatorsConcat(render(x), "%");
    SwapSeparatorsConcat("US$ ", render(x));
    SwapSeparatorsAt("%");
    SwapSeparatorsAt("US$ ");
    assert SwapSeparators("%") == "%";
    assert SwapSeparators("US$ ") == "US$ ";
  }

  /** The eight panel outputs, in callback order: value, year, percent
      change, absolute change, CAGR, range, rank, rank year. */
  function KpiTexts(t: seq<Row>, ind: string, pais: string, a0: int, a1: int,
                    render: real -> string, nthRoot: (real, int) -> real): seq<string>
  {
    Render(ComputeKpis(t, ind, pais, a0, a1), ind, a0, a1, render, nthRoot)
  }

  /** `['N/A'] * 8`. */
  const AllNotAvailable: seq<string> := ["N/A", "N/A", "N/A", "N/A", "N/A", "N/A", "N/A", "N/A"]

  function Render(k: Panel, ind: string, a0: int, a1: int,
                  render: real -> string, nthRoot: (real, int) -> real): (out: seq<string>)
    ensures |out| == 8
    ensures k.Panel? ==> out[1] == YearText(k.lastYear) && out[1][0] == 'A'
    ensures out == AllNotAvailable <==> k.NoData?
  {
    match k
    case NoData => AllNotAvailable
    case Panel(lastValue, lastYear, change, _, _, nYears, cagrRatio, rank) =>
      [ FormatValue(ind, Some(lastValue), render),
        YearText(lastYear),
        PercentText(change, render),
        AbsoluteText(change, ind, render),
        GrowthText(cagrRatio, nYears, render, nthRoot),
        IntToString(a0) + "–" + IntToString(a1),
        RankText(rank),
        TopText(rank, lastYear) ]
  }

  /** `f"{var_pct:,.2f}%"` with the separators swapped, or 'N/A'. */
  function PercentText(change: Option<Change>, render: real -> string): string {
    SwapSeparators(if change.Some? && change.value.percent.Some?
                   then render(change.value.percent.value) + "%" else "N/A")
  }

  /** `f"Δ {formato_valor(indicador, var_abs)}"`, or 'Δ N/A'. */
  function AbsoluteText(change: Option<Change>, ind: string, render: real -> string): string {
    if change.Some? then "Δ " + FormatValue(ind, Some(change.value.absolute), render) else "Δ N/A"
  }

  /** `top_txt`: empty when no row of the indicator has that year. */
  function TopText(rank: Rank, lastYear: int): string {
    if rank.NoRankRows? then "" else YearText(lastYear)
  }

  /** Whether `cagr` is a number. It is NaN when the first value is 0 (the
      guard), and when a negative ratio is raised to the fractional power
      `1 / n_years` with `n_years >= 2`: the values are numpy floats, whose
      power of a negative base by a non-integer exponent is NaN. With
      `n_years == 1` the exponent is 1.0 and any ratio gives a number. */
  predicate GrowthDefined(cagrRatio: Option<real>, nYears: int) {
    cagrRatio.Some? && (0.0 <= cagrRatio.value || nYears == 1)
  }

  /** `f"{cagr:,.2f}%"` with the separators swapped, or 'N/A'. */
  function GrowthText(cagrRatio: Option<real>, nYears: int,
                      render: real -> string, nthRoot: (real, int) -> real): string
  {
    SwapSeparators(if GrowthDefined(cagrRatio, nYears)
                   then render((nthRoot(cagrRatio.value, nYears) - 1.0) * 100.0) + "%"
                   else "N/A")
  }

  /** The growth text is 'N/A' exactly when the growth rate is not a number. */
  lemma GrowthTextNotAvailable(cagrRatio: Option<real>, nYears: int,
                               render: real -> string, nthRoot: (real, int) -> real)
    ensures GrowthText(cagrRatio, nYears, render, nthRoot) == "N/A" <==> !GrowthDefined(cagrRatio, nYears)
  {
    if GrowthDefined(cagrRatio, nYears) {
      var x := render((nthRoot(cagrRatio.value, nYears) - 1.0) * 100.0);
      SwapSeparatorsConcat(x, "%");
      SwapSeparatorsFixed("%");
      var out := SwapSeparators(x) + "%";
      assert GrowthText(cagrRatio, nYears, render, nthRoot) == out;
      assert out[|out| - 1] == '%';
      assert |out| != 3 || out[2] != "N/A"[2];
    } else {
      SwapSeparatorsFixed("N/A");
    }
  }

  /** A text without ',', '.' or 'X' passes the separator swap unchanged. */
  lemma SwapSeparatorsFixed(s: string)
    requires forall i :: 0 <= i < |s| ==> s[i] != ',' && s[i] != '.' && s[i] != 'X'
    ensures SwapSeparators(s) == s
  {
    SwapSeparatorsAt(s);
  }

  /** `f"Año {last_year}"`. */
  function YearText(year: int): string {
    "Año " + IntToString(year)
  }

  /** `f"#{rank} de {total}"`, or 'N/A'. */
  function RankText(rank: Rank): string {
    match rank
    case Ranked(Some(pos), total) => "#" + IntToString(pos) + " de " + IntToString(total)
    case _ => "N/A"
  }

  /** The year label reads back as the year, and is never 'N/A'. */
  lemma YearTextRoundTrip(year: int)
    ensures YearText(year)[..4] == "Año " && YearText(year) != "N/A"
    ensures ParseInt(YearText(year)[4..]) == year
  {
    assert YearText(year)[4..] == IntToString(year);
    IntToStringRoundTrip(year);
    assert YearText(year)[0] != "N/A"[0];
  }

  lemma RenderNoData(k: Panel, ind: string, a0: int, a1: int,
                     render: real -> string, nthRoot: (real, int) -> real)
    requires k.NoData?
    ensures Render(k, ind, a0, a1, render, nthRoot) == AllNotAvailable
  {}

  lemma RenderYear(k: Panel, ind: string, a0: int, a1: int,
                   render: real -> string, nthRoot: (real, int) -> real)
    requires k.Panel?
    ensures Render(k, ind, a0, a1, render, nthRoot)[1] == YearText(k.lastYear)
  {}

  lemma RenderRank(k: Panel, ind: string, a0: int, a1: int,
                   render: real -> string, nthRoot: (real, int) -> real)
    requires k.Panel? && k.rank.Ranked? && k.rank.position.Some?
    ensures "#" <= Render(k, ind, a0, a1, render, nthRoot)[6]
  {}

  /** The growth output is 'N/A' exactly when the growth rate is not a
      number. */
  lemma RenderGrowth(k: Panel, ind: string, a0: int, a1: int,
                     render: real -> string, nthRoot: (real, int) -> real)
    requires k.Panel?
    ensures Render(k, ind, a0, a1, render, nthRoot)[4] == "N/A" <==> !GrowthDefined(k.cagrRatio, k.nYears)
  {
    assert Render(k, ind, a0, a1, render, nthRoot)[4] == GrowthText(k.cagrRatio, k.nYears, render, nthRoot);
    GrowthTextNotAvailable(k.cagrRatio, k.nYears, render, nthRoot);
  }

  /** Rendering gives eight 'N/A' exactly for the empty panel; otherwise the
      year output is the last year's label, and the rank output is a rank
      whenever the rank is defined. */
  lemma RenderShape(k: Panel, ind: string, a0: int, a1: int,
                    render: real -> string, nthRoot: (real, int) -> real)
    ensures Render(k, ind, a0, a1, render, nthRoot) == AllNotAvailable <==> k.NoData?
    ensures k.Panel? ==> Render(k, ind, a0, a1, render, nthRoot)[1] == YearText(k.lastYear)
    ensures k.Panel? && k.rank.Ranked? && k.rank.position.Some? ==>
      "#" <= Render(k, ind, a0, a1, render, nthRoot)[6]
  {
    if k.NoData? {
      RenderNoData(k, ind, a0, a1, render, nthRoot);
    } else {
      RenderYear(k, ind, a0, a1, render, nthRoot);
      if k.rank.Ranked? && k.rank.position.Some? {
        RenderRank(k, ind, a0, a1, render, nthRoot);
      }
    }
  }

  /** All eight outputs are 'N/A' exactly when nothing is selected; with a
      selection the year output is the last year's label (which reads back
      as that year, `YearTextRoundTrip`) and the rank output is always a
      rank. */
  lemma KpiTextsEmptyIff(t: seq<Row>, ind: string, pais: string, a0: int, a1: int,
                         render: real -> string, nthRoot: (real, int) -> real)
    ensures KpiTexts(t, ind, pais, a0, a1, render, nthRoot) == AllNotAvailable <==>
      forall r :: r in t ==> !(r.indicador == ind && r.pais == pais && a0 <= r.anio <= a1)
    ensures ComputeKpis(t, ind, pais, a0, a1).Panel? ==>
      KpiTexts(t, ind, pais, a0, a1, render, nthRoot)[1] ==
        YearText(ComputeKpis(t, ind, pais, a0, a1).lastYear) &&
      "#" <= KpiTexts(t, ind, pais, a0, a1, render, nthRoot)[6]
  {
    var k := ComputeKpis(t, ind, pais, a0, a1);
    assert KpiTexts(t, ind, pais, a0, a1, render, nthRoot) == Render(k, ind, a0, a1, render, nthRoot);
    KpisEmptyIff(t, ind, pais, a0, a1);
    RenderShape(k, ind, a0, a1, render, nthRoot);
    if k.Panel? {
      KpisRankDefined(t, ind, pais, a0, a1);
    }
  }

  /** The growth output is 'N/A' exactly when the first value is 0, or when
      the last value over the first is negative and the years span at least
      two. */
  lemma KpiTextsGrowth(t: seq<Row>, ind: string, pais: string, a0: int, a1: int,
                       render: real -> string, nthRoot: (real, int) -> real)
    ensures var k := ComputeKpis(t, ind, pais, a0, a1);
      k.Panel? ==>
        (KpiTexts(t, ind, pais, a0, a1, render, nthRoot)[4] == "N/A" <==>
          k.firstValue == 0.0 || (k.lastValue / k.firstValue < 0.0 && k.lastYear - k.firstYear >= 2))
  {
    var k := ComputeKpis(t, ind, pais, a0, a1);
    if k.Panel? {
      KpisGrowth(t, ind, pais, a0, a1);
      RenderGrowth(k, ind, a0, a1, render, nthRoot);
    }
  }

}

=== FILE: table.dfy ===
/** The combined table: one row per observation, with the five columns
    CodigoISO3, Pais, Anio, Valor, Indicador, and the row operations the
    dashboard applies to it (boolean-mask selection, sorting, counting). */
module Table {

  /** One observation after normalisation. Year and value are always present:
      rows whose year or value did not parse are dropped before a `Row` is
      built. */
  datatype Row = Row(iso3: string, pais: string, anio: int, valor: real, indicador: string)

  // ---------------------------------------------------------------------
  // String order (Python compares strings code point by code point)
  // ---------------------------------------------------------------------

  predicate StrLt(a: string, b: string)
    decreases |a|
  {
    if a == [] then b != []
    else if b == [] then false
    else if a[0] != b[0] then a[0] < b[0]
    else StrLt(a[1..], b[1..])
  }

  lemma {:induction false} StrLtTrichotomy(a: string, b: string)
    ensures a == b || StrLt(a, b) || StrLt(b, a)
  {
    if a != [] && b != [] && a[0] == b[0] {
      StrLtTrichotomy(a[1..], b[1..]);
      if a[1..] == b[1..] {
        assert a == [a[0]] + a[1..] && b == [b[0]] + b[1..];
      }
    }
  }

  lemma {:induction false} StrLtTransitive(a: string, b: string, c: string)
    requires StrLt(a, b) && StrLt(b, c)
    ensures StrLt(a, c)
  {
    if a != [] && a[0] == b[0] && b[0] == c[0] {
      StrLtTransitive(a[1..], b[1..], c[1..]);
    }
  }

  // ---------------------------------------------------------------------
  // The three orders the dashboard sorts by
  // ---------------------------------------------------------------------

  /** `sort_values(['Indicador', 'Pais', 'Anio'])`, `sort_values('Anio')`,
      `sort_values('Valor', ascending=False)`. */
  datatype Order = ByKey | ByYear | ByValueDesc

  predicate Le(o: Order, x: Row, y: Row) {
    match o
    case ByKey =>
      StrLt(x.indicador, y.indicador) ||
      (x.indicador == y.indicador &&
        (StrLt(x.pais, y.pais) || (x.pais == y.pais && x.anio <= y.anio)))
    case ByYear => x.anio <= y.anio
    case ByValueDesc => x.valor >= y.valor
  }

  lemma LeTotal(o: Order, x: Row, y: Row)
    ensures Le(o, x, y) || Le(o, y, x)
  {
    if o == ByKey {
      StrLtTrichotomy(x.indicador, y.indicador);
      StrLtTrichotomy(x.pais, y.pais);
    }
  }

  lemma LeTransitive(o: Order, x: Row, y: Row, z: Row)
    requires Le(o, x, y) && Le(o, y, z)
    ensures Le(o, x, z)
  {
    if o == ByKey {
      if StrLt(x.indicador, y.indicador) && StrLt(y.indicador, z.indicador) {
        StrLtTransitive(x.indicador, y.indicador, z.indicador);
      }
      if x.indicador == y.indicador == z.indicador && StrLt(x.pais, y.pais) && StrLt(y.pais, z.pais) {
        StrLtTransitive(x.pais, y.pais, z.pais);
      }
    }
  }

  predicate Sorted(s: seq<Row>, o: Order) {
    forall i, j :: 0 <= i < j < |s| ==> Le(o, s[i], s[j])
  }

  /** Inserts `x` before the first element it does not come after. */
  function Insert(x: Row, s: seq<Row>, o: Order): (r: seq<Row>)
    ensures multiset(r) == multiset(s) + multiset{x}
  {
    if s == [] then [x]
    else if Le(o, x, s[0]) then [x] + s
    else assert s == [s[0]] + s[1..]; [s[0]] + Insert(x, s[1..], o)
  }

  lemma {:induction false} InsertSorted(x: Row, s: seq<Row>, o: Order)
    requires Sorted(s, o)
    ensures Sorted(Insert(x, s, o), o)
  {
    if s == [] {
    } else if Le(o, x, s[0]) {
      forall y | y in s ensures Le(o, x, y) {
        var k :| 0 <= k < |s| && s[k] == y;
        if k > 0 { LeTransitive(o, x, s[0], y); }
      }
      SortedCons(x, s, o);
    } else {
      var t := Insert(x, s[1..], o);
      assert Sorted(s[1..], o);
      InsertSorted(x, s[1..], o);
      LeTotal(o, x, s[0]);
      forall y | y in t ensures Le(o, s[0], y) {
        assert y in multiset(t);
        if y != x {
          assert y in multiset(s[1..]);
          var k :| 0 <= k < |s[1..]| && s[1..][k] == y;
          assert s[k + 1] == y;
        }
      }
      SortedCons(s[0], t, o);
    }
  }

  /** A stable insertion sort. */
  function Sort(s: seq<Row>, o: Order): seq<Row> {
    if s == [] then [] else Insert(s[0], Sort(s[1..], o), o)
  }

  /** Sorting yields an ordered permutation of its input. */
  lemma {:induction false} SortCorrect(s: seq<Row>, o: Order)
    ensures Sorted(Sort(s, o), o)
    ensures multiset(Sort(s, o)) == multiset(s)
  {
    if s != [] {
      SortCorrect(s[1..], o);
      InsertSorted(s[0], Sort(s[1..], o), o);
      assert s == [s[0]] + s[1..];
    }
  }

  lemma SortMembers(s: seq<Row>, o: Order)
    ensures |Sort(s, o)| == |s|
    ensures forall x :: x in Sort(s, o) <==> x in s
  {
    SortCorrect(s, o);
    assert |Sort(s, o)| == |multiset(Sort(s, o))| == |multiset(s)| == |s|;
    forall x ensures x in Sort(s, o) <==> x in s {
      assert x in Sort(s, o) <==> x in multiset(Sort(s, o));
      assert x in s <==> x in multiset(s);
    }
  }

  // ---------------------------------------------------------------------
  // Boolean-mask selection: `df[mask]`
  // ---------------------------------------------------------------------

  /** The rows of `s` for which `keep` holds, in their original order. */
  function Select(s: seq<Row>, keep: Row -> bool): (r: seq<Row>)
    ensures |r| <= |s|
    ensures forall x :: x in r <==> x in s && keep(x)
    ensures forall x :: multiset(r)[x] == if keep(x) then multiset(s)[x] else 0
  {
    if s == [] then []
    else
      assert s == [s[0]] + s[1..];
      (if keep(s[0]) then [s[0]] else []) + Select(s[1..], keep)
  }

  /** Selection keeps the relative order of the rows it keeps, so a sorted
      table stays sorted. */
  lemma {:induction false} SelectSorted(s: seq<Row>, keep: Row -> bool, o: Order)
    requires Sorted(s, o)
    ensures Sorted(Select(s, keep), o)
  {
    if s != [] {
      var tail := Select(s[1..], keep);
      SelectSorted(s[1..], keep, o);
      assert Sorted(s[1..], o);
      if keep(s[0]) {
        forall y | y in tail ensures Le(o, s[0], y) {
          var k :| 0 <= k < |s[1..]| && s[1..][k] == y;
          assert s[k + 1] == y;
        }
        SortedCons(s[0], tail, o);
      }
    }
  }

  lemma SortedCons(x: Row, s: seq<Row>, o: Order)
    requires Sorted(s, o)
    requires forall y :: y in s ==> Le(o, x, y)
    ensures Sorted([x] + s, o)
  {
    var r := [x] + s;
    forall i, j | 0 <= i < j < |r| ensures Le(o, r[i], r[j]) {
      assert r[j] == s[j - 1];
      if i > 0 { assert r[i] == s[i - 1]; }
    }
  }

  // ---------------------------------------------------------------------
  // Counting rows
  // ---------------------------------------------------------------------

  /** The number of rows of `s` for which `p` holds. */
  function Count(s: seq<Row>, p: Row -> bool): nat {
    if s == [] then 0 else (if p(s[0]) then 1 else 0) + Count(s[1..], p)
  }

  lemma {:induction false} CountConcat(a: seq<Row>, b: seq<Row>, p: Row -> bool)
    ensures Count(a + b, p) == Count(a, p) + Count(b, p)
  {
    if a != [] {
      assert (a + b)[0] == a[0];
      assert (a + b)[1..] == a[1..] + b;
      CountConcat(a[1..], b, p);
    } else {
      assert a + b == b;
    }
  }

  /** Counts depend only on the multiset of rows, not on their order. */
  lemma {:induction false} CountPermutation(a: seq<Row>, b: seq<Row>, p: Row -> bool)
    requires multiset(a) == multiset(b)
    ensures Count(a, p) == Count(b, p)
  {
    if a == [] {
      assert |b| == |multiset(b)| == 0;
    } else {
      assert a == [a[0]] + a[1..];
      assert a[0] in multiset(b);
      var i :| 0 <= i < |b| && b[i] == a[0];
      var rest := RemoveAt(b, i, p);
      CountPermutation(a[1..], rest, p);
    }
  }

  /** `b` without its element at `i`: one fewer of that row, and one fewer
      counted row if it satisfies `p`. */
  lemma RemoveAt(b: seq<Row>, i: nat, p: Row -> bool) returns (rest: seq<Row>)
    requires i < |b|
    ensures multiset(rest) == multiset(b) - multiset{b[i]}
    ensures Count(b, p) == (if p(b[i]) then 1 else 0) + Count(rest, p)
  {
    rest := b[..i] + b[i + 1..];
    assert b == b[..i] + [b[i]] + b[i + 1..];
    CountConcat(b[..i] + [b[i]], b[i + 1..], p);
    CountConcat(b[..i], [b[i]], p);
    CountConcat(b[..i], b[i + 1..], p);
    assert [b[i]][1..] == [];
  }

  lemma {:induction false} CountAtMost(s: seq<Row>, p: Row -> bool)
    ensures Count(s, p) <= |s|
  {
    if s != [] { CountAtMost(s[1..], p); }
  }

  lemma {:induction false} CountNone(s: seq<Row>, p: Row -> bool)
    requires forall j :: 0 <= j < |s| ==> !p(s[j])
    ensures Count(s, p) == 0
  {
    if s != [] {
      assert forall j :: 0 <= j < |s[1..]| ==> s[1..][j] == s[j + 1];
      CountNone(s[1..], p);
    }
  }

  lemma {:induction false} CountAll(s: seq<Row>, p: Row -> bool)
    requires forall j :: 0 <= j < |s| ==> p(s[j])
    ensures Count(s, p) == |s|
  {
    if s != [] {
      assert forall j :: 0 <= j < |s[1..]| ==> s[1..][j] == s[j + 1];
      CountAll(s[1..], p);
    }
  }
}

=== FILE: text.dfy ===
/** Character-level string helpers used by the dashboard's formatting:
    single-character replacement, the ','/'.' separator swap, substring
    tests and decimal rendering of integers. */
module Text {

  /** Python's `s.replace(from, to)` for one-character arguments. */
  function Replace(s: string, from: char, to: char): (r: string)
    ensures |r| == |s|
  {
    if s == [] then [] else [if s[0] == from then to else s[0]] + Replace(s[1..], from, to)
  }

  /** Each character equal to `from` becomes `to`; every other one stays. */
  lemma {:induction false} ReplaceAt(s: string, from: char, to: char)
    ensures forall i :: 0 <= i < |s| ==> Replace(s, from, to)[i] == (if s[i] == from then to else s[i])
  {
    if s != [] {
      ReplaceAt(s[1..], from, to);
      var r := Replace(s, from, to);
      forall i | 1 <= i < |s| ensures r[i] == (if s[i] == from then to else s[i]) {
        assert r[i] == Replace(s[1..], from, to)[i - 1];
        assert s[i] == s[1..][i - 1];
      }
    }
  }

  /** What the three chained replacements do to one character. */
  function SwapChar(c: char): char {
    if c == ',' then '.' else if c == '.' then ',' else if c == 'X' then '.' else c
  }

  /** `.replace(',', 'X').replace('.', ',').replace('X', '.')`: turns the
      English thousands/decimal separators of a rendered number into the
      Spanish ones, using 'X' as a placeholder. */
  function SwapSeparators(s: string): string {
    Replace(Replace(Replace(s, ',', 'X'), '.', ','), 'X', '.')
  }

  /** The chain acts character by character, and a literal 'X' in the input
      comes out as '.'. */
  lemma SwapSeparatorsAt(s: string)
    ensures |SwapSeparators(s)| == |s|
    ensures forall i :: 0 <= i < |s| ==> SwapSeparators(s)[i] == SwapChar(s[i])
  {
    var a := Replace(s, ',', 'X');
    var b := Replace(a, '.', ',');
    var c := Replace(b, 'X', '.');
    ReplaceAt(s, ',', 'X');
    ReplaceAt(a, '.', ',');
    ReplaceAt(b, 'X', '.');
    forall i | 0 <= i < |s| ensures c[i] == SwapChar(s[i]) {
      assert a[i] == (if s[i] == ',' then 'X' else s[i]);
      assert b[i] == (if a[i] == '.' then ',' else a[i]);
    }
  }

  /** On a string without 'X' the chain exchanges every ',' with '.' and
      every '.' with ',', and leaves every other character alone. */
  lemma SwapSeparatorsExchanges(s: string)
    requires 'X' !in s
    ensures |SwapSeparators(s)| == |s|
    ensures forall i :: 0 <= i < |s| && s[i] == ',' ==> SwapSeparators(s)[i] == '.'
    ensures forall i :: 0 <= i < |s| && s[i] == '.' ==> SwapSeparators(s)[i] == ','
    ensures forall i :: 0 <= i < |s| && s[i] != ',' && s[i] != '.' ==> SwapSeparators(s)[i] == s[i]
  {
    SwapSeparatorsAt(s);
  }

  /** On strings without 'X' the swap is its own inverse. */
  lemma SwapSeparatorsInvolution(s: string)
    requires 'X' !in s
    ensures 'X' !in SwapSeparators(s)
    ensures SwapSeparators(SwapSeparators(s)) == s
  {
    var t := SwapSeparators(s);
    SwapSeparatorsAt(s);
    assert forall i :: 0 <= i < |t| ==> t[i] != 'X' by {
      forall i | 0 <= i < |t| ensures t[i] != 'X' {
        assert s[i] != 'X';
      }
    }
    SwapSeparatorsAt(t);
    assert SwapSeparators(t) == s by {
      forall i | 0 <= i < |s| ensures SwapSeparators(t)[i] == s[i] {
        assert s[i] != 'X';
      }
    }
  }

  /** The swap distributes over concatenation, so a prefix or suffix that has
      no separators survives it unchanged. */
  lemma SwapSeparatorsConcat(a: string, b: string)
    ensures SwapSeparators(a + b) == SwapSeparators(a) + SwapSeparators(b)
  {
    var ab, sa, sb := SwapSeparators(a + b), SwapSeparators(a), SwapSeparators(b);
    SwapSeparatorsAt(a);
    SwapSeparatorsAt(b);
    SwapSeparatorsAt(a + b);
    forall i | 0 <= i < |a| ensures ab[i] == (sa + sb)[i] {
      assert (a + b)[i] == a[i];
    }
    forall i | |a| <= i < |a| + |b| ensures ab[i] == (sa + sb)[i] {
      assert (a + b)[i] == b[i - |a|];
    }
    assert ab == sa + sb;
  }

  /** Python's `sub in s` for strings. */
  predicate Contains(s: string, sub: string) {
    exists i :: 0 <= i <= |s| && OccursAt(s, sub, i)
  }

  predicate OccursAt(s: string, sub: string, i: nat) {
    i + |sub| <= |s| && s[i..i + |sub|] == sub
  }

  function Digit(d: nat): char
    requires d < 10
  {
    "0123456789"[d]
  }

  predicate IsDigit(c: char) { '0' <= c <= '9' }

  function DigitValue(c: char): (d: nat)
    requires IsDigit(c)
    ensures d < 10 && Digit(d) == c
  {
    (c as int - '0' as int) as nat
  }

  lemma DigitRoundTrip(d: nat)
    requires d < 10
    ensures DigitValue(Digit(d)) == d
  {}

  /** Python's `str(n)` for a non-negative integer. */
  function NatToString(n: nat): (s: string)
    ensures |s| >= 1
    ensures forall i :: 0 <= i < |s| ==> IsDigit(s[i])
    ensures n >= 10 ==> s[0] != '0'
  {
    if n < 10 then [Digit(n)] else NatToString(n / 10) + [Digit(n % 10)]
  }

  /** Python's `str(n)` (and `f"{n}"`) for any integer. */
  function IntToString(n: int): (s: string)
    ensures |s| >= 1
    ensures n < 0 <==> s[0] == '-'
  {
    if n < 0 then "-" + NatToString(-n) else NatToString(n)
  }

  /** Reads a non-empty run of decimal digits. */
  function ParseNat(s: string): nat
    requires forall i :: 0 <= i < |s| ==> IsDigit(s[i])
  {
    if s == [] then 0 else ParseNat(s[..|s| - 1]) * 10 + DigitValue(s[|s| - 1])
  }

  /** Reads what `IntToString` writes. */
  function ParseInt(s: string): int
    requires |s| >= 1
    requires forall i :: 0 < i < |s| ==> IsDigit(s[i])
    requires s[0] == '-' || IsDigit(s[0])
  {
    if s[0] == '-' then 0 - ParseNat(s[1..]) as int else ParseNat(s)
  }

  lemma {:induction false} ParseNatToString(n: nat)
    ensures ParseNat(NatToString(n)) == n
  {
    var s := NatToString(n);
    if n < 10 {
      DigitRoundTrip(n);
      assert s[..0] == [];
    } else {
      var q, d := n / 10, n % 10;
      assert s == NatToString(q) + [Digit(d)];
      assert s[..|s| - 1] == NatToString(q);
      ParseNatToString(q);
      DigitRoundTrip(d);
      assert n == q * 10 + d;
    }
  }

  /** Rendering an integer in decimal loses nothing. */
  lemma IntToStringRoundTrip(n: int)
    ensures ParseInt(IntToString(n)) == n
  {
    if n < 0 {
      assert IntToString(n)[1..] == NatToString(-n);
      ParseNatToString(-n);
    } else {
      ParseNatToString(n);
    }
  }

  /** `sep.join(parts)`. */
  function Join(sep: string, parts: seq<string>): string {
    if parts == [] then [] else if |parts| == 1 then parts[0]
    else parts[0] + sep + Join(sep, parts[1..])
  }
}

=== FILE: worldbank.dfy ===
/** Loading the combined table from the World Bank Indicators API (v2):
    page accumulation per indicator, row normalisation, and the merge of the
    surviving indicator tables (`obtener_datos_bm`). The HTTP request is a
    page source passed in as a function; `pd.to_numeric` is a coercion passed
    in the same way. */
module WorldBank {
  import opened Wrappers
  import opened Table
  import Text

  // ---------------------------------------------------------------------
  // Registries
  // ---------------------------------------------------------------------

  /** Country display name -> ISO3 code, in dictionary order. */
  const Paises: seq<(string, string)> := [
    ("Argentina", "ARG"), ("Bolivia", "BOL"), ("Brasil", "BRA"), ("Chile", "CHL"),
    ("Colombia", "COL"), ("Costa Rica", "CRI"), ("Cuba", "CUB"), ("Ecuador", "ECU"),
    ("El Salvador", "SLV"), ("Guatemala", "GTM"), ("Honduras", "HND"), ("México", "MEX"),
    ("Nicaragua", "NIC"), ("Panamá", "PAN"), ("Paraguay", "PRY"), ("Perú", "PER"),
    ("República Dominicana", "DOM"), ("Uruguay", "URY"), ("Venezuela", "VEN")
  ]

  /** Indicator display name -> API indicator code, in dictionary order. */
  const Indicadores: seq<(string, string)> := [
    ("PIB per cápita (US$)", "NY.GDP.PCAP.CD"),
    ("Tasa de Inflación Anual (%)", "FP.CPI.TOTL.ZG"),
    ("Tasa de Desempleo (%)", "SL.UEM.TOTL.ZS"),
    ("Esperanza de Vida (años)", "SP.DYN.LE00.IN"),
    ("Gasto en Salud per cápita (US$)", "SH.XPD.CHEX.PC.CD"),
    ("Acceso a Electricidad (% población)", "EG.ELC.ACCS.ZS"),
    ("Emisiones de CO2 (t per cápita)", "EN.ATM.CO2E.PC"),
    ("Usuarios de Internet (% población)", "IT.NET.USER.ZS")
  ]

  const AnioInicio: int := 2000
  const AnioFin: int := 2024

  // ---------------------------------------------------------------------
  // The API's responses
  // ---------------------------------------------------------------------

  /** A JSON field that `pd.to_numeric` may or may not turn into a number. */
  datatype RawValue = Null | Number(x: real) | JsonString(s: string)

  /** One element of a page's data list: `countryiso3code`, `country`,
      `date`, `value`. */
  datatype RawRow = RawRow(countryiso3code: string, country: string, date: RawValue, value: RawValue)

  /** The `pages` entry of the metadata object: missing, readable by `int()`,
      or not (`int()` raises). */
  datatype PagesField = PagesAbsent | Pages(n: int) | PagesUnreadable

  /** The first element of the envelope: an object (with `.get`) or not. */
  datatype Meta = Metadata(pages: PagesField) | NotAnObject

  /** A decoded page: an array of at least two elements `[metadata, data]`
      (`data` is `null` or a list of rows), a shorter array, an object with
      some number of keys, or `null`. */
  datatype Response =
    | Envelope(meta: Meta, data: Option<seq<RawRow>>)
    | ShortArray
    | JsonObject(keys: nat)
    | JsonNull

  /** A page request either raises (network, timeout, non-2xx status, bad
      JSON) or yields a decoded page. */
  datatype Fetched = FetchError | Fetched(response: Response)

  /** The cache key of a page request, without the page number:
      `countries_iso`, the indicator code and `date_range`. */
  datatype Query = Query(countriesIso: string, indicator: string, dateRange: string)

  /** `pd.to_numeric(..., errors='coerce')` on the year and on the value
      column; `None` is the NaN that coercion produces. */
  datatype Coercion = Coercion(year: RawValue -> Option<int>, value: RawValue -> Option<real>)

  // ---------------------------------------------------------------------
  // Pages
  // ---------------------------------------------------------------------

  /** What page 1 decides: skip the indicator, or start with `rows` and read
      up to page `pages`. */
  datatype FirstPage = Skip | Start(pages: int, rows: seq<RawRow>)

  function ReadFirstPage(f: Fetched): (r: FirstPage)
    ensures r.Start? ==> r.rows != []
  {
    match f
    case FetchError => Skip
    case Fetched(Envelope(meta, Some(rows))) =>
      if rows == [] then Skip
      else (match meta
            case NotAnObject => Skip
            case Metadata(PagesAbsent) => Start(1, rows)
            case Metadata(Pages(n)) => Start(n, rows)
            case Metadata(PagesUnreadable) => Skip)
    case Fetched(_) => Skip
  }

  /** What a later page does: add its rows (possibly none), or raise. */
  datatype PageStep = Append(rows: seq<RawRow>) | Abort

  function ReadLaterPage(f: Fetched): PageStep {
    match f
    case FetchError => Abort
    case Fetched(Envelope(_, Some(rows))) => Append(rows)
    case Fetched(Envelope(_, None)) => Append([])
    case Fetched(ShortArray) => Append([])
    case Fetched(JsonObject(keys)) => if keys > 1 then Abort else Append([])
    case Fetched(JsonNull) => Abort
  }

  /** The rows of pages 2..`hi` in page order, or `None` if one of them
      raised. */
  function LaterPages(fetch: (Query, int) -> Fetched, q: Query, hi: int): Option<seq<RawRow>>
    decreases hi
  {
    if hi < 2 then Some([])
    else match LaterPages(fetch, q, hi - 1)
      case None => None
      case Some(acc) =>
        match ReadLaterPage(fetch(q, hi))
        case Abort => None
        case Append(rows) => Some(acc + rows)
  }

  /** A page that raises spoils every later total. */
  lemma {:induction false} LaterPagesAbortSticks(fetch: (Query, int) -> Fetched, q: Query, m: int, hi: int)
    requires m <= hi
    requires LaterPages(fetch, q, m) == None
    ensures LaterPages(fetch, q, hi) == None
  {
    if m < hi {
      LaterPagesAbortSticks(fetch, q, m, hi - 1);
    }
  }

  /** Pages 2..`hi` all succeed exactly when none of them raises. */
  lemma {:induction false} LaterPagesSucceed(fetch: (Query, int) -> Fetched, q: Query, hi: int)
    ensures LaterPages(fetch, q, hi).Some? <==>
      forall p :: 2 <= p <= hi ==> ReadLaterPage(fetch(q, p)).Append?
  {
    if hi >= 2 {
      LaterPagesSucceed(fetch, q, hi - 1);
    }
  }

  /** A later page that is short, has `null` or empty data, or is an object
      with at most one key leaves the collected rows as they were. */
  lemma LaterPagesEmptyPageAddsNothing(fetch: (Query, int) -> Fetched, q: Query, hi: int)
    requires hi >= 2
    requires match fetch(q, hi)
             case Fetched(Envelope(_, data)) => data == None || data == Some([])
             case Fetched(ShortArray) => true
             case Fetched(JsonObject(keys)) => keys <= 1
             case _ => false
    ensures LaterPages(fetch, q, hi) == LaterPages(fetch, q, hi - 1)
  {
    match LaterPages(fetch, q, hi - 1)
    case None =>
    case Some(acc) => assert acc + [] == acc;
  }

  /** The rows one page contributes when it does not raise. */
  function PageRows(f: Fetched): seq<RawRow> {
    match ReadLaterPage(f)
    case Append(rows) => rows
    case Abort => []
  }

  /** When no later page raises, the collected rows are the pages' rows in
      page order: the rows of pages 2..`lo` are those of pages 2..`lo - 1`
      followed by page `lo`'s own, and they are a prefix of the rows of
      pages 2..`hi`. */
  lemma {:induction false} LaterPagesInOrder(fetch: (Query, int) -> Fetched, q: Query, lo: int, hi: int)
    requires 2 <= lo <= hi
    requires LaterPages(fetch, q, hi).Some?
    ensures LaterPages(fetch, q, lo - 1).Some? && LaterPages(fetch, q, lo).Some?
    ensures LaterPages(fetch, q, lo).value == LaterPages(fetch, q, lo - 1).value + PageRows(fetch(q, lo))
    ensures LaterPages(fetch, q, lo).value <= LaterPages(fetch, q, hi).value
  {
    if lo < hi {
      LaterPagesInOrder(fetch, q, lo, hi - 1);
    } else {
      if LaterPages(fetch, q, lo - 1).None? {
        LaterPagesAbortSticks(fetch, q, lo - 1, hi);
      }
    }
  }

  // ---------------------------------------------------------------------
  // Normalisation
  // ---------------------------------------------------------------------

  /** `{v: k for k, v in dict_paises.items()}`: code -> name; when two names
      share a code, the later one wins. */
  function ReverseRegistry(registry: seq<(string, string)>): map<string, string> {
    if registry == [] then map[]
    else
      var last := registry[|registry| - 1];
      ReverseRegistry(registry[..|registry| - 1])[last.1 := last.0]
  }

  /** The reversed registry knows exactly the registry's codes, and maps each
      to the last name registered with it. */
  lemma ReverseRegistryLookup(registry: seq<(string, string)>, code: string)
    ensures code in ReverseRegistry(registry) <==> exists i :: 0 <= i < |registry| && registry[i].1 == code
    ensures code in ReverseRegistry(registry) ==>
      exists i :: 0 <= i < |registry| && registry[i].1 == code &&
        ReverseRegistry(registry)[code] == registry[i].0 &&
        forall j :: i < j < |registry| ==> registry[j].1 != code
  {
    ReverseRegistryDomain(registry, code);
    if code in ReverseRegistry(registry) {
      ReverseRegistryLast(registry, code);
    }
  }

  lemma {:induction false} ReverseRegistryDomain(registry: seq<(string, string)>, code: string)
    ensures code in ReverseRegistry(registry) <==> exists i :: 0 <= i < |registry| && registry[i].1 == code
  {
    if registry != [] {
      var init := registry[..|registry| - 1];
      ReverseRegistryDomain(init, code);
      if registry[|registry| - 1].1 != code {
        forall i | 0 <= i < |registry| && registry[i].1 == code ensures code in ReverseRegistry(init) {
          assert registry[i] == init[i];
        }
        if code in ReverseRegistry(init) {
          var i :| 0 <= i < |init| && init[i].1 == code;
          assert registry[i] == init[i];
        }
      }
    }
  }

  lemma {:induction false} ReverseRegistryLast(registry: seq<(string, string)>, code: string)
    requires code in ReverseRegistry(registry)
    ensures exists i ::
      0 <= i < |registry| && registry[i].1 == code &&
      ReverseRegistry(registry)[code] == registry[i].0 &&
      forall j :: i < j < |registry| ==> registry[j].1 != code
  {
    var n := |registry| - 1;
    var init := registry[..n];
    if registry[n].1 == code {
      assert ReverseRegistry(registry)[code] == registry[n].0;
    } else {
      assert code in ReverseRegistry(init);
      ReverseRegistryLast(init, code);
      var i :| 0 <= i < |init| && init[i].1 == code &&
        ReverseRegistry(init)[code] == init[i].0 &&
        forall j :: i < j < |init| ==> init[j].1 != code;
      assert registry[i] == init[i];
      forall j | i < j < |registry| ensures registry[j].1 != code {
        if j < n { assert registry[j] == init[j]; }
      }
    }
  }

  /** With distinct codes the reversed registry inverts the registry. */
  lemma ReverseRegistryInverts(registry: seq<(string, string)>, i: int)
    requires 0 <= i < |registry|
    requires forall j, k :: 0 <= j < k < |registry| ==> registry[j].1 != registry[k].1
    ensures registry[i].1 in ReverseRegistry(registry)
    ensures ReverseRegistry(registry)[registry[i].1] == registry[i].0
  {
    ReverseRegistryLookup(registry, registry[i].1);
  }

  /** One raw row after renaming, country resolution and coercion; `None`
      when the year or the value did not coerce (the row is dropped). */
  function NormalizeRow(raw: RawRow, name: string, rev: map<string, string>, coerce: Coercion): Option<Row> {
    var pais := if raw.countryiso3code in rev then rev[raw.countryiso3code] else raw.country;
    match (coerce.year(raw.date), coerce.value(raw.value))
    case (Some(y), Some(v)) => Some(Row(raw.countryiso3code, pais, y, v, name))
    case _ => None
  }

  function NormalizeAll(raws: seq<RawRow>, name: string, rev: map<string, string>, coerce: Coercion): seq<Row> {
    if raws == [] then []
    else
      (match NormalizeRow(raws[0], name, rev, coerce) case Some(r) => [r] case None => []) +
      NormalizeAll(raws[1..], name, rev, coerce)
  }

  /** The cleaned table of one indicator, rows in the order collected. */
  function Normalize(raws: seq<RawRow>, name: string, registry: seq<(string, string)>, coerce: Coercion): seq<Row> {
    NormalizeAll(raws, name, ReverseRegistry(registry), coerce)
  }

  /** Normalisation works row by row: the cleaned rows of `a + b` are those
      of `a` followed by those of `b`, so every surviving raw row keeps its
      own row, in order, duplicates included. */
  lemma {:induction false} NormalizeAllConcat(a: seq<RawRow>, b: seq<RawRow>, name: string,
                                              rev: map<string, string>, coerce: Coercion)
    ensures NormalizeAll(a + b, name, rev, coerce) == NormalizeAll(a, name, rev, coerce) + NormalizeAll(b, name, rev, coerce)
  {
    if a != [] {
      assert (a + b)[0] == a[0];
      assert (a + b)[1..] == a[1..] + b;
      NormalizeAllConcat(a[1..], b, name, rev, coerce);
    } else {
      assert a + b == b;
    }
  }

  /** A row survives normalisation exactly when its year and value coerce,
      and nothing else appears in the cleaned table. */
  lemma {:induction false} NormalizeAllMembers(raws: seq<RawRow>, name: string, rev: map<string, string>, coerce: Coercion)
    ensures |NormalizeAll(raws, name, rev, coerce)| <= |raws|
    ensures forall r :: r in NormalizeAll(raws, name, rev, coerce) <==>
      exists i :: 0 <= i < |raws| && NormalizeRow(raws[i], name, rev, coerce) == Some(r)
  {
    if raws != [] {
      NormalizeAllMembers(raws[1..], name, rev, coerce);
      forall r ensures r in NormalizeAll(raws, name, rev, coerce) <==>
        exists i :: 0 <= i < |raws| && NormalizeRow(raws[i], name, rev, coerce) == Some(r)
      {
        if exists i :: 0 <= i < |raws| && NormalizeRow(raws[i], name, rev, coerce) == Some(r) {
          var i :| 0 <= i < |raws| && NormalizeRow(raws[i], name, rev, coerce) == Some(r);
          if i > 0 { assert raws[1..][i - 1] == raws[i]; }
        }
        if r in NormalizeAll(raws[1..], name, rev, coerce) {
          var i :| 0 <= i < |raws[1..]| && NormalizeRow(raws[1..][i], name, rev, coerce) == Some(r);
          assert raws[i + 1] == raws[1..][i];
        }
      }
    }
  }

  /** What a normalised row holds: the raw row's ISO3 code; as Pais the
      registry name registered last for that code when there is one, the raw
      country field otherwise; the coerced year and value, both present;
      the indicator's name. */
  lemma NormalizeRowFields(raw: RawRow, name: string, registry: seq<(string, string)>, coerce: Coercion, r: Row)
    requires NormalizeRow(raw, name, ReverseRegistry(registry), coerce) == Some(r)
    ensures r.iso3 == raw.countryiso3code && r.indicador == name
    ensures coerce.year(raw.date) == Some(r.anio) && coerce.value(raw.value) == Some(r.valor)
    ensures (exists i :: 0 <= i < |registry| && registry[i].1 == r.iso3) ==>
      exists i :: 0 <= i < |registry| && registry[i].1 == r.iso3 && r.pais == registry[i].0 &&
        forall j :: i < j < |registry| ==> registry[j].1 != r.iso3
    ensures (forall i :: 0 <= i < |registry| ==> registry[i].1 != r.iso3) ==> r.pais == raw.country
  {
    ReverseRegistryLookup(registry, raw.countryiso3code);
  }

  // ---------------------------------------------------------------------
  // One indicator
  // ---------------------------------------------------------------------

  /** The table one indicator contributes, or `None` when it contributes
      nothing (page 1 unusable, or some page raised). */
  function IndicatorTable(fetch: (Query, int) -> Fetched, q: Query, name: string,
                          registry: seq<(string, string)>, coerce: Coercion): Option<seq<Row>>
  {
    match ReadFirstPage(fetch(q, 1))
    case Skip => None
    case Start(pages, first) =>
      match LaterPages(fetch, q, pages)
      case None => None
      case Some(rest) => Some(Normalize(first + rest, name, registry, coerce))
  }

  /** Page 1 not being an envelope with rows drops the indicator; an
      envelope with rows and no `pages` entry is read as a single page. */
  lemma IndicatorTableFirstPage(fetch: (Query, int) -> Fetched, q: Query, name: string,
                                registry: seq<(string, string)>, coerce: Coercion)
    ensures (match fetch(q, 1)
             case Fetched(Envelope(_, data)) => data == None || data == Some([])
             case _ => true) ==> IndicatorTable(fetch, q, name, registry, coerce) == None
    ensures (match fetch(q, 1)
             case Fetched(Envelope(Metadata(PagesAbsent), Some(rows))) => rows != []
             case _ => false) ==>
      IndicatorTable(fetch, q, name, registry, coerce) ==
        Some(Normalize(fetch(q, 1).response.data.value, name, registry, coerce))
  {
    if fetch(q, 1).Fetched? && fetch(q, 1).response.Envelope? &&
       fetch(q, 1).response.meta == Metadata(PagesAbsent) && fetch(q, 1).response.data.Some? {
      var rows := fetch(q, 1).response.data.value;
      assert rows + [] == rows;
    }
  }

  /** `obtener_datos_bm`'s body for one indicator: read page 1, then extend
      the collected rows with pages 2..`pages`, then normalise. */
  method FetchIndicator(fetch: (Query, int) -> Fetched, q: Query, name: string,
                        registry: seq<(string, string)>, coerce: Coercion)
    returns (table: Option<seq<Row>>)
    ensures table == IndicatorTable(fetch, q, name, registry, coerce)
  {
    var first := ReadFirstPage(fetch(q, 1));
    if first.Skip? {
      return None;
    }
    var pages := first.pages;
    var allRows := first.rows;
    ghost var collected: seq<RawRow> := [];
    var p := 2;
    while p <= pages
      invariant 2 <= p && (p <= pages + 1 || p == 2)
      invariant allRows == first.rows + collected
      invariant LaterPages(fetch, q, p - 1) == Some(collected)
    {
      match ReadLaterPage(fetch(q, p)) {
        case Abort =>
          LaterPagesAbortSticks(fetch, q, p, pages);
          return None;
        case Append(rows) =>
          allRows := allRows + rows;
          collected := collected + rows;
      }
      p := p + 1;
    }
    table := Some(Normalize(allRows, name, registry, coerce));
  }

  // ---------------------------------------------------------------------
  // All indicators
  // ---------------------------------------------------------------------

  function Codes(registry: seq<(string, string)>): seq<string> {
    if registry == [] then [] else [registry[0].1] + Codes(registry[1..])
  }

  /** The request for one indicator: all countries' codes joined by ';' and
      the year range written `a0:a1`. */
  function QueryFor(registry: seq<(string, string)>, code: string, a0: int, a1: int): Query {
    Query(Text.Join(";", Codes(registry)), code, Text.IntToString(a0) + ":" + Text.IntToString(a1))
  }

  /** The tables of the indicators that survive, in registry order (`dfs`). */
  function Surviving(fetch: (Query, int) -> Fetched, registry: seq<(string, string)>,
                     indicators: seq<(string, string)>, a0: int, a1: int, coerce: Coercion): seq<seq<Row>>
  {
    if indicators == [] then []
    else
      var prev := Surviving(fetch, registry, indicators[..|indicators| - 1], a0, a1, coerce);
      var ind := indicators[|indicators| - 1];
      match IndicatorTable(fetch, QueryFor(registry, ind.1, a0, a1), ind.0, registry, coerce)
      case None => prev
      case Some(t) => prev + [t]
  }

  /** `pd.concat(dfs)`. */
  function Flatten(tables: seq<seq<Row>>): seq<Row> {
    if tables == [] then [] else Flatten(tables[..|tables| - 1]) + tables[|tables| - 1]
  }

  /** The combined table: the surviving tables concatenated and sorted by
      (Indicador, Pais, Anio); with no surviving indicator, no rows. */
  function CombinedTable(fetch: (Query, int) -> Fetched, registry: seq<(string, string)>,
                         indicators: seq<(string, string)>, a0: int, a1: int, coerce: Coercion): seq<Row>
  {
    Sort(Flatten(Surviving(fetch, registry, indicators, a0, a1, coerce)), ByKey)
  }

  /** `obtener_datos_bm`: loop over the indicators, appending each surviving
      table to `dfs`, then concatenate and sort. */
  method BuildCombinedTable(fetch: (Query, int) -> Fetched, registry: seq<(string, string)>,
                            indicators: seq<(string, string)>, a0: int, a1: int, coerce: Coercion)
    returns (table: seq<Row>)
    ensures table == CombinedTable(fetch, registry, indicators, a0, a1, coerce)
  {
    var dfs: seq<seq<Row>> := [];
    for i := 0 to |indicators|
      invariant dfs == Surviving(fetch, registry, indicators[..i], a0, a1, coerce)
    {
      var name, code := indicators[i].0, indicators[i].1;
      var t := FetchIndicator(fetch, QueryFor(registry, code, a0, a1), name, registry, coerce);
      assert indicators[..i + 1][..i] == indicators[..i];
      if t.Some? {
        dfs := dfs + [t.value];
      }
    }
    assert indicators[..|indicators|] == indicators;
    if dfs != [] {
      table := Sort(Flatten(dfs), ByKey);
    } else {
      table := [];
    }
  }

  /** `pd.concat` keeps every row of every table, in table order: flattening
      `a + b` is flattening `a` followed by flattening `b`. */
  lemma {:induction false} FlattenConcat(a: seq<seq<Row>>, b: seq<seq<Row>>)
    ensures Flatten(a + b) == Flatten(a) + Flatten(b)
  {
    if b == [] {
      assert a + b == a;
    } else {
      var init := b[..|b| - 1];
      assert (a + b)[..|a + b| - 1] == a + init;
      assert (a + b)[|a + b| - 1] == b[|b| - 1];
      FlattenConcat(a, init);
    }
  }

  lemma {:induction false} FlattenMembers(tables: seq<seq<Row>>, r: Row)
    ensures r in Flatten(tables) <==> exists k :: 0 <= k < |tables| && r in tables[k]
  {
    if tables != [] {
      var init := tables[..|tables| - 1];
      FlattenMembers(init, r);
      if exists k :: 0 <= k < |tables| && r in tables[k] {
        var k :| 0 <= k < |tables| && r in tables[k];
        if k < |init| { assert init[k] == tables[k]; }
      }
      if exists k :: 0 <= k < |init| && r in init[k] {
        var k :| 0 <= k < |init| && r in init[k];
        assert init[k] == tables[k];
      }
    }
  }

  /** Every surviving table is the table of one of the indicators. */
  lemma {:induction false} SurvivingProvenance(fetch: (Query, int) -> Fetched, registry: seq<(string, string)>,
                                               indicators: seq<(string, string)>, a0: int, a1: int,
                                               coerce: Coercion, k: int)
    requires 0 <= k < |Surviving(fetch, registry, indicators, a0, a1, coerce)|
    ensures exists i :: (0 <= i < |indicators| &&
      IndicatorTable(fetch, QueryFor(registry, indicators[i].1, a0, a1), indicators[i].0, registry, coerce)
        == Some(Surviving(fetch, registry, indicators, a0, a1, coerce)[k]))
  {
    var init := indicators[..|indicators| - 1];
    var prev := Surviving(fetch, registry, init, a0, a1, coerce);
    if k < |prev| {
      SurvivingProvenance(fetch, registry, init, a0, a1, coerce, k);
      var i :| 0 <= i < |init| &&
        IndicatorTable(fetch, QueryFor(registry, init[i].1, a0, a1), init[i].0, registry, coerce) == Some(prev[k]);
      assert init[i] == indicators[i];
    }
  }

  /** Every indicator whose table is defined has that table collected. */
  lemma {:induction false} SurvivingComplete(fetch: (Query, int) -> Fetched, registry: seq<(string, string)>,
                                             indicators: seq<(string, string)>, a0: int, a1: int,
                                             coerce: Coercion, i: int)
    requires 0 <= i < |indicators|
    requires IndicatorTable(fetch, QueryFor(registry, indicators[i].1, a0, a1), indicators[i].0, registry, coerce).Some?
    ensures IndicatorTable(fetch, QueryFor(registry, indicators[i].1, a0, a1), indicators[i].0, registry, coerce).value
      in Surviving(fetch, registry, indicators, a0, a1, coerce)
  {
    var init := indicators[..|indicators| - 1];
    if i < |init| {
      assert init[i] == indicators[i];
      SurvivingComplete(fetch, registry, init, a0, a1, coerce, i);
    }
  }

  /** With every indicator failing, the combined table has no rows. */
  lemma {:induction false} SurvivingNone(fetch: (Query, int) -> Fetched, registry: seq<(string, string)>,
                                         indicators: seq<(string, string)>, a0: int, a1: int, coerce: Coercion)
    requires forall i :: 0 <= i < |indicators| ==>
      IndicatorTable(fetch, QueryFor(registry, indicators[i].1, a0, a1), indicators[i].0, registry, coerce) == None
    ensures Surviving(fetch, registry, indicators, a0, a1, coerce) == []
    ensures CombinedTable(fetch, registry, indicators, a0, a1, coerce) == []
  {
    if indicators != [] {
      var init := indicators[..|indicators| - 1];
      forall i | 0 <= i < |init| ensures
        IndicatorTable(fetch, QueryFor(registry, init[i].1, a0, a1), init[i].0, registry, coerce) == None
      {
        assert init[i] == indicators[i];
      }
      SurvivingNone(fetch, registry, init, a0, a1, coerce);
    }
  }

  /** The combined table is sorted by (Indicador, Pais, Anio), holds exactly
      the rows of the surviving indicator tables (with multiplicity), every
      row comes from the table of an indicator whose name it carries, and
      every row of every indicator's table is in it. */
  lemma CombinedTableCorrect(fetch: (Query, int) -> Fetched, registry: seq<(string, string)>,
                             indicators: seq<(string, string)>, a0: int, a1: int, coerce: Coercion)
    ensures Sorted(CombinedTable(fetch, registry, indicators, a0, a1, coerce), ByKey)
    ensures multiset(CombinedTable(fetch, registry, indicators, a0, a1, coerce)) ==
            multiset(Flatten(Surviving(fetch, registry, indicators, a0, a1, coerce)))
    ensures forall r :: r in CombinedTable(fetch, registry, indicators, a0, a1, coerce) ==>
      exists i :: (0 <= i < |indicators| && r.indicador == indicators[i].0 &&
        var t := IndicatorTable(fetch, QueryFor(registry, indicators[i].1, a0, a1), indicators[i].0, registry, coerce);
        t.Some? && r in t.value)
    ensures forall i, r ::
      (0 <= i < |indicators| &&
       IndicatorTable(fetch, QueryFor(registry, indicators[i].1, a0, a1), indicators[i].0, registry, coerce).Some? &&
       r in IndicatorTable(fetch, QueryFor(registry, indicators[i].1, a0, a1), indicators[i].0, registry, coerce).value) ==>
      r in CombinedTable(fetch, registry, indicators, a0, a1, coerce)
  {
    var tables := Surviving(fetch, registry, indicators, a0, a1, coerce);
    SortCorrect(Flatten(tables), ByKey);
    SortMembers(Flatten(tables), ByKey);
    forall r | r in CombinedTable(fetch, registry, indicators, a0, a1, coerce)
      ensures exists i :: (0 <= i < |indicators| && r.indicador == indicators[i].0 &&
        var t := IndicatorTable(fetch, QueryFor(registry, indicators[i].1, a0, a1), indicators[i].0, registry, coerce);
        t.Some? && r in t.value)
    {
      FlattenMembers(tables, r);
      var k :| 0 <= k < |tables| && r in tables[k];
      SurvivingProvenance(fetch, registry, indicators, a0, a1, coerce, k);
      var i :| 0 <= i < |indicators| &&
        IndicatorTable(fetch, QueryFor(registry, indicators[i].1, a0, a1), indicators[i].0, registry, coerce) == Some(tables[k]);
      IndicatorRowsNamed(fetch, QueryFor(registry, indicators[i].1, a0, a1), indicators[i].0, registry, coerce, r);
    }
    forall i, r | 0 <= i < |indicators| &&
      IndicatorTable(fetch, QueryFor(registry, indicators[i].1, a0, a1), indicators[i].0, registry, coerce).Some? &&
      r in IndicatorTable(fetch, QueryFor(registry, indicators[i].1, a0, a1), indicators[i].0, registry, coerce).value
      ensures r in CombinedTable(fetch, registry, indicators, a0, a1, coerce)
    {
      SurvivingComplete(fetch, registry, indicators, a0, a1, coerce, i);
      var t := IndicatorTable(fetch, QueryFor(registry, indicators[i].1, a0, a1), indicators[i].0, registry, coerce).value;
      var k :| 0 <= k < |tables| && tables[k] == t;
      FlattenMembers(tables, r);
    }
  }

  /** `DF_ALL = obtener_datos_bm(PAISES, INDICADORES)`: the dashboard's table,
      loaded once for the listed countries and indicators over the default
      year range. It is sorted by (Indicador, Pais, Anio), and every row
      carries the name of one of the listed indicators. */
  function DfAll(fetch: (Query, int) -> Fetched, coerce: Coercion): (df: seq<Row>)
    ensures Sorted(df, ByKey)
    ensures forall r :: r in df ==> exists i :: 0 <= i < |Indicadores| && r.indicador == Indicadores[i].0
  {
    CombinedTableCorrect(fetch, Paises, Indicadores, AnioInicio, AnioFin, coerce);
    CombinedTable(fetch, Paises, Indicadores, AnioInicio, AnioFin, coerce)
  }

  /** Every request of the load asks for the years written `2000:2024`. */
  lemma DefaultDateRange(code: string)
    ensures QueryFor(Paises, code, AnioInicio, AnioFin).dateRange == "2000:2024"
  {
    CenturyYearText(2000);
    CenturyYearText(2024);
    assert Text.IntToString(AnioInicio) == "2000" by {
      assert (2000 / 10) % 10 == 0 && 2000 % 10 == 0 && Text.Digit(0) == '0';
    }
    assert Text.IntToString(AnioFin) == "2024" by {
      assert (2024 / 10) % 10 == 2 && 2024 % 10 == 4 && Text.Digit(2) == '2' && Text.Digit(4) == '4';
    }
    assert "2000" + ":" + "2024" == "2000:2024";
  }

  /** The decimal text of a year 2000..2099 is "20" and its last two digits. */
  lemma CenturyYearText(y: int)
    requires 2000 <= y < 2100
    ensures Text.IntToString(y) == ['2', '0', Text.Digit((y / 10) % 10), Text.Digit(y % 10)]
  {
    assert Text.NatToString(2) == "2";
    assert Text.NatToString(20) == "20";
    assert Text.NatToString(y / 10) == ['2', '0', Text.Digit((y / 10) % 10)];
  }

  /** The module-level load: the indicator loop run on the two registries and
      the default years yields `DfAll`. */
  method LoadDfAll(fetch: (Query, int) -> Fetched, coerce: Coercion) returns (df: seq<Row>)
    ensures df == DfAll(fetch, coerce)
  {
    df := BuildCombinedTable(fetch, Paises, Indicadores, AnioInicio, AnioFin, coerce);
  }

  /** Every row of an indicator's table carries that indicator's name. */
  lemma IndicatorRowsNamed(fetch: (Query, int) -> Fetched, q: Query, name: string,
                           registry: seq<(string, string)>, coerce: Coercion, r: Row)
    requires IndicatorTable(fetch, q, name, registry, coerce).Some?
    requires r in IndicatorTable(fetch, q, name, registry, coerce).value
    ensures r.indicador == name
  {
    var first := ReadFirstPage(fetch(q, 1));
    var raws := first.rows + LaterPages(fetch, q, first.pages).value;
    NormalizeAllMembers(raws, name, ReverseRegistry(registry), coerce);
  }

  /** The registry's codes are distinct, so every listed country's code
      resolves back to that country's name. */
  lemma PaisesResolve(i: int)
    requires 0 <= i < |Paises|
    ensures Paises[i].1 in ReverseRegistry(Paises)
    ensures ReverseRegistry(Paises)[Paises[i].1] == Paises[i].0
  {
    assert forall j, k :: 0 <= j < k < |Paises| ==> Paises[j].1 != Paises[k].1;
    ReverseRegistryInverts(Paises, i);
  }
}

=== FILE: wrappers.dfy ===
/** The optional value used for "absent" results (a skipped indicator, a
    value that did not parse, a KPI that is not available). */
module Wrappers {
  datatype Option<+T> = None | Some(value: T)
}
